=== FILE: README.md ===
# Strategy Planner core, modelled in Dafny

Strategy Planner is a small Streamlit application. It edits Value Proposition
Canvases, keeps them in a SQLite table, exports them as Markdown or JSON, and
runs "agents" — a system prompt plus a task — against one of four language-model
providers or an offline echo backend. This project models the deterministic
logic of the application as pure Dafny functions over immutable values, and
proves what that logic promises:

- `Filename` — the download file-name sanitiser (`_sanitize_filename`).
- `Storage` — the `canvases` table as a map from id to row, with its
  AUTOINCREMENT id and UNIQUE name: save (insert or update by presence of an
  id), delete, lookups by id and by name, and the listing order.
- `Export` — the Markdown exporter and the JSON exporter, including their
  not-found answers.
- `Secrets` — the two-tier secret lookup (Streamlit secrets, then the
  environment).
- `Backends` — backend-name normalisation, routing over the closed set of
  providers with echo as the fallback, and each provider's constants (key
  name, default model, endpoint, error label).
- `Responses` — what a run does with the provider's response: the non-200
  error text with its 500-character quote, and text extraction from each
  provider's JSON envelope.
- `Agents` — `run_agent`, split into `Prepare` (no I/O: echo, missing key, or
  the request to send) and `RunAgent` (the reply, given the provider's
  response).
- `AppTabs` — the pure parts of the Agents and Run tabs: the search filter,
  the name-to-agent map, the run guard, the choice and composition of the
  system prompt, the `(no output)` fallback, the history and its last-20
  window.
- `Strings`, `PyJson`, `Wrappers` — the Python string operations, the JSON
  values and the `Option`/`Result` types the rest is written in.

Outside inputs are parameters: the save time, `json.dumps`, the secrets
store and environment, the provider's HTTP response, and the stored prompt of
an agent. Python exceptions that the modelled code can raise (`.get` on a
non-dict, `[0]` on an empty list, `"".join` of a non-string, a body that is
not JSON) are `Failure` values of `PyError`, not preconditions.

Three behaviours of the code worth noting:

- Saving with an id that matches no row does not insert anything. It still
  answers with that id, the name and the time (`Storage.SaveCanvas`).
- The echo backend returns the input followed by the context suffix, not the
  bare input.
- A 200 response whose body is not JSON, or whose JSON has an unexpected
  shape, raises out of `run_agent` instead of becoming a displayable string.
  The model returns a `Failure`.

## Model

| member | source | states |
|---|---|---|
| `Filename.Sanitize` | strategy_planner/app.py:29-31 | The file name has 1 to 60 characters, all from `[A-Za-z0-9._-]`; an empty or whitespace-only name gives exactly `untitled`; any other name gives the first 60 characters of its stripped text with every disallowed run collapsed to one `_`. |
| `Filename.RunLength` | strategy_planner/app.py:31 | The run the pattern's `+` consumes: only disallowed characters, ending at the first allowed one or at the end of the text. |
| `Filename.Collapse` | strategy_planner/app.py:31 | Replacing disallowed runs never lengthens the text and never empties non-empty text. |
| `Filename.CollapseOnlyAllowed` | strategy_planner/app.py:31 | After the substitution only characters of `[A-Za-z0-9._-]` remain. |
| `Filename.CollapseAllowed` | strategy_planner/app.py:31 | Text made only of allowed characters passes the substitution unchanged. |
| `Filename.CollapseRun` | strategy_planner/app.py:31 | A maximal run of disallowed characters, however long, becomes exactly one `_`, and the text around it is kept. |
| `Filename.SanitizeValidName` | strategy_planner/app.py:29-31 | A name whose stripped form is at most 60 allowed characters is returned stripped and otherwise unchanged. |
| `Filename.SanitizeIdempotent` | strategy_planner/app.py:29-31 | Sanitising a sanitised name returns it unchanged. |
| `Strings.Strip` | strategy_planner/app.py:30 | `strip()` returns the slice between the leading and trailing whitespace, starts and ends with non-whitespace, and is empty exactly when the input is all whitespace. |
| `Strings.Lower` | strategy_planner/agents.py:40 | `lower()` keeps the length and lower-cases each character. |
| `Strings.LowerIdempotent` | strategy_planner/agents.py:40 | Lower-casing twice equals lower-casing once. |
| `Strings.StripNonBlank` | strategy_planner/storage.py:154 | Text with a non-whitespace character strips to the non-empty slice from its first to its last such character. |
| `Strings.ContainsIffOccurs` | strategy_planner/app.py:251 | The substring test holds exactly when the needle occurs at some offset. |
| `Strings.Take` | strategy_planner/agents.py:68 | `s[:n]` is a prefix of `s` of length `min(n, len(s))`. |
| `Strings.NatToStringRoundTrip` | strategy_planner/agents.py:68 | The decimal rendering of a status code is non-empty, all digits, has no leading zero and parses back to the code. |
| `Strings.StrLeReflexive` | strategy_planner/storage.py:50 | Every text precedes itself in code-point order. |
| `Strings.StrLeTotal` | strategy_planner/storage.py:50 | Any two texts are comparable in code-point order. |
| `Strings.StrLeTransitive` | strategy_planner/storage.py:50 | Code-point order is transitive. |
| `Strings.StrLeAntisymmetric` | strategy_planner/storage.py:50 | Texts that compare both ways are equal. |
| `Strings.JoinLinesContainsPart` | strategy_planner/storage.py:172 | Every part of a `"\n".join` occurs in the joined text. |
| `Strings.JoinLinesStartsWithFirst` | strategy_planner/storage.py:172 | A `"\n".join` starts with its first part. |
| `Strings.StripFromNonSpaceStart` | strategy_planner/app.py:370 | Stripping text that begins with non-whitespace only removes trailing whitespace and keeps every non-whitespace character. |
| `PyJson.Get` | strategy_planner/agents.py:70 | `.get(key, default)` raises AttributeError exactly on a non-dict, and otherwise yields the value under the key or the default. |
| `PyJson.First` | strategy_planner/agents.py:70 | `[0]` of a non-empty list is its first element; it succeeds only on a non-empty list or string. |
| `Storage.SaveCanvas` | strategy_planner/storage.py:70-127 | Without an id it inserts under the next AUTOINCREMENT id, with `created_at = updated_at = now`, unless another row has the name. With an id it rewrites that row's name, fields and `updated_at` and keeps `created_at`. A missing id changes nothing but still echoes the id. A duplicate name fails and leaves the table as it was. The table's constraints are preserved. |
| `Storage.EmptyValid` | strategy_planner/storage.py:23-40 | A freshly created table meets the AUTOINCREMENT and UNIQUE constraints that `SaveCanvas` and `DeleteCanvas` preserve. |
| `Storage.DeleteCanvas` | strategy_planner/storage.py:130-132 | Only the row with that id is removed, the others are kept unchanged, and a missing id leaves the table as it was. |
| `Storage.GetCanvasById` | strategy_planner/storage.py:56-60 | The row with that id, or `None` exactly when there is none. |
| `Storage.GetCanvasByName` | strategy_planner/storage.py:63-67 | A row with that name, or `None` exactly when no row has it; in a valid table it is the only row with that name. |
| `Storage.ListCanvases` | strategy_planner/storage.py:47-53 | One summary per row (id, name, `updated_at`), covering every id, sorted by `updated_at` descending and then by name ascending. |
| `Storage.Insert` | strategy_planner/storage.py:50 | Inserting into a sorted listing keeps it sorted, adds exactly the new entry and keeps the others. |
| `Storage.ListedBeforeTotal` | strategy_planner/storage.py:50 | Any two rows are ordered one way or the other by the listing order. |
| `Storage.ListedBeforeTransitive` | strategy_planner/storage.py:50 | The listing order is transitive. |
| `Storage.ListedBeforeAntisymmetric` | strategy_planner/storage.py:50 | Rows ordered both ways share `updated_at` and name. |
| `Storage.ListingUnique` | strategy_planner/storage.py:29-50 | With unique names, any two sorted listings of the same rows are equal, so the ORDER BY fixes the result. |
| `Storage.SaveThenGet` | strategy_planner/storage.py:83-105 | After an insert, looking up the returned id gives the saved name, fields and time, under an id that was not in use; the table has one more row. |
| `Storage.UpdateInPlace` | strategy_planner/storage.py:106-127 | An update keeps the set of ids and `created_at`, stores the new fields, and leaves every other row alone. |
| `Storage.DuplicateNameRejected` | strategy_planner/storage.py:29 | Inserting or updating to a name another row holds fails with `NameTaken` and changes nothing. |
| `Storage.DeleteIdempotent` | strategy_planner/storage.py:130-132 | Deleting twice equals deleting once, and the row is gone. |
| `Export.ExportMarkdown` | strategy_planner/storage.py:144-147 | A missing id gives exactly `# Value Proposition Canvas\n\n(Not found)`, and only a missing id does; a found canvas's document is exactly the rendering of that row, opening with the titled heading. |
| `Export.MarkdownLayout` | strategy_planner/storage.py:149-172 | The document is the title, a blank line, Created and Last Updated, a blank line, then Customer Segment (Jobs, Pains, Gains) and Value Proposition (Products & Services, Gain Creators, Pain Relievers), each part separated by one newline. |
| `Export.DocumentLayout` | strategy_planner/storage.py:157-172 | The thirteen-part list joined by newlines, written out as one string. |
| `Export.BlankFieldRendersDash` | strategy_planner/storage.py:153-155 | An empty or whitespace-only field renders as `## <Title>\n\n-\n`. |
| `Export.FilledFieldRendersStripped` | strategy_planner/storage.py:153-155 | A field with text renders as that text without its leading and trailing whitespace. |
| `Export.MarkdownIgnoresPadding` | strategy_planner/storage.py:153-155 | The document depends on each field only through its stripped text. |
| `Export.MarkdownHasEverySection` | strategy_planner/storage.py:157-172 | Each of the six rendered sections occurs in the exported document. |
| `Export.EmptyCanvasMarkdown` | strategy_planner/storage.py:144-172 | The exact document of a canvas whose six fields are empty. |
| `Export.RowJsonRoundTrip` | strategy_planner/storage.py:43-44 | The row's dict keeps every column: the row can be read back from it. |
| `Export.ExportJson` | strategy_planner/storage.py:135-141 | A missing id gives exactly `{}`; otherwise the serialised dict of that row. |
| `Secrets.GetSecret` | strategy_planner/agents.py:15-28 | The result is absent exactly when no key has a non-empty value in either place. Otherwise it is the value of the first such key, with the secrets store taking precedence over the environment. |
| `Secrets.StoreShadowsEnv` | strategy_planner/agents.py:18-22 | A non-empty value in the secrets store wins whatever the environment holds. |
| `Secrets.EmptyValuesSkipped` | strategy_planner/agents.py:20-27 | A key whose value is empty wherever it is set, in the secrets store, the environment or both, can be removed from both without changing the lookup of any list of keys. |
| `Secrets.SameLookupOffKey` | strategy_planner/agents.py:17-28 | Sources that differ only at a key without a usable value give the same lookup. |
| `Backends.RouteOf` | strategy_planner/agents.py:40-139 | The route is each provider exactly when the stripped, lower-cased backend is its name; every other name is echo. |
| `Backends.EffectiveModel` | strategy_planner/agents.py:41-122 | The model is the stripped model name, or the provider's default when that is empty; never empty. |
| `Backends.NormalizeIdempotent` | strategy_planner/agents.py:40 | Normalising twice equals normalising once. |
| `Backends.RouteIgnoresCaseAndSpace` | strategy_planner/agents.py:40 | A backend routes like its normalised name. |
| `Backends.PaddedMixedCaseRoutes` | strategy_planner/agents.py:40-52 | `" OpenAI "` reaches OpenAI. |
| `Backends.EchoFallbackIffUnknown` | strategy_planner/agents.py:137-139 | Echo is taken exactly when the normalised name is none of the four providers. |
| `Responses.ErrorReply` | strategy_planner/agents.py:67-68 | The error text starts with `[<Label> Error] `, then the status in decimal without leading zeros, `: `, and the first 500 characters of the body. |
| `Responses.ErrorReplyQuotesBodyPrefix` | strategy_planner/agents.py:68 | The quoted body is the first `min(500, len(body))` characters and ends the error text. |
| `Responses.ChatContent` | strategy_planner/agents.py:69-70 | A non-dict body raises AttributeError. No `choices` gives `""`, and an empty `choices` raises IndexError. For a non-empty list, a non-dict first choice or message raises AttributeError, a missing message gives `""`, and otherwise the result is the message's `content`, or `""` without one. |
| `Responses.ChatContentOfFirstChoice` | strategy_planner/agents.py:70 | A completion whose first choice has a message with `content` yields that content, whatever other keys the envelope, choice and message carry and whatever choices follow. |
| `Responses.OllamaContent` | strategy_planner/agents.py:132-135 | The content of `message`, with `""` for a missing message or content; a non-dict body or a non-dict message raises AttributeError. |
| `Responses.SelectTexts` | strategy_planner/agents.py:94 | Selecting text blocks fails exactly when some block is not a dict, and keeps at most one text per block. A single text block yields its `text` (or `""` without one); a single dict block of another type yields nothing. |
| `Responses.JoinStrings` | strategy_planner/agents.py:94 | `"".join` raises TypeError exactly when some value is not a string. |
| `Responses.AnthropicContent` | strategy_planner/agents.py:92-94 | A non-dict body raises, missing `content` gives `""`, and any success is a string. When `content` is a list, the result is the joined text of its text blocks, or the error that selecting or joining raised. |
| `Responses.BlocksTextAppend` | strategy_planner/agents.py:94 | The text of two runs of blocks is the first run's text followed by the second's: blocks contribute in order. |
| `Responses.BlocksTextSkipsOtherBlocks` | strategy_planner/agents.py:94 | A block whose type is not `text` contributes nothing. |
| `Responses.BlocksTextOfTextBlock` | strategy_planner/agents.py:94 | A single text block, whatever other keys it carries, contributes `""` without `text`, its `text` when that is a string, and raises TypeError otherwise. |
| `Responses.AnthropicExample` | strategy_planner/agents.py:93-94 | Text, tool call, text gives the two texts concatenated. |
| `Responses.Complete` | strategy_planner/agents.py:66-135 | A non-200 status gives the error text; a 200 without a JSON body raises; otherwise the provider's extraction. |
| `Agents.ContextSuffix` | strategy_planner/agents.py:44-49 | An absent or empty context adds nothing. Otherwise the suffix starts with `\n\nCONTEXT (JSON):\n` followed by the serialised context, or is `\n\nCONTEXT: (unserializable)` when serialising fails. |
| `Agents.BuildRequest` | strategy_planner/agents.py:56-128 | The request goes to the provider's endpoint with the effective model, the system prompt and the user content. OpenAI and OpenRouter send `Authorization: Bearer <key>`; Anthropic sends `x-api-key: <key>` and `anthropic-version: 2023-06-01`. Only Anthropic sets `max_tokens` 1024, only Ollama sets `stream` false and sends no headers. |
| `Agents.Prepare` | strategy_planner/agents.py:40-139 | Echo replies at once with `[Echo Backend]\n` + input + suffix. A provider without a usable key replies `[Error] <KEY> not set.`. Otherwise a request is built for that provider, with the effective model, the system prompt, the input plus suffix, and the headers carrying the key the secret lookup found (none for Ollama). |
| `Agents.RunAgent` | strategy_planner/agents.py:31-139 | Echo replies with `[Echo Backend]\n`, the input and the context suffix. A provider without a usable key replies `[Error] <KEY> not set.`. A non-200 status gives the provider's error text. A 200 gives the provider's extraction from the JSON body, and a body that is not JSON raises. |
| `Agents.ImmediateIgnoresResponse` | strategy_planner/agents.py:53-139 | Echo and missing-key runs make no request: any response gives the same reply. |
| `Agents.PrepareNormalizesBackend` | strategy_planner/agents.py:40 | The run depends on the backend only through its normalised name. |
| `Agents.EchoReply` | strategy_planner/agents.py:137-139 | Any echo run without context replies `[Echo Backend]\n` followed by the input, whatever the keys, model and response. |
| `Agents.MissingKeyRun` | strategy_planner/agents.py:52-99 | A provider whose key has no usable value replies `[Error] <KEY> not set.`, whatever the response. |
| `Agents.ProviderErrorRun` | strategy_planner/agents.py:66-131 | A provider with a key that answers with a non-200 status gives the `[<Label> Error] <status>: <body>` reply. |
| `Agents.EchoExample` | strategy_planner/agents.py:137-139 | `echo` with `hi` and no context replies exactly `[Echo Backend]\nhi` with no configuration. |
| `Agents.OpenAIMissingKeyExample` | strategy_planner/agents.py:53-55 | OpenAI without a key replies exactly `[Error] OPENAI_API_KEY not set.`. |
| `Agents.OpenAIServerErrorExample` | strategy_planner/agents.py:66-68 | A 500 with body `server error` replies exactly `[OpenAI Error] 500: server error`. |
| `AppTabs.KeepMatching` | strategy_planner/app.py:251 | The matching agents, in list order: an agent is kept exactly when its name contains the query, ignoring case, and each matching agent appears as often as in the input. |
| `AppTabs.SearchFilter` | strategy_planner/app.py:250-253 | An empty query returns the whole list; the result is an order-preserving subsequence of exactly the matching agents, each as often as in the input. |
| `AppTabs.EmptyQueryKeepsAll` | strategy_planner/app.py:250-253 | Matching with an empty query would also keep every agent. |
| `AppTabs.KeepMatchingIdempotent` | strategy_planner/app.py:251 | Filtering twice by the same query equals filtering once. |
| `AppTabs.QueryCaseIgnored` | strategy_planner/app.py:251 | The query's case does not change the result. |
| `AppTabs.AgentMap` | strategy_planner/app.py:335 | The map's keys are the agents' names, each name maps to an agent with that name, and a later agent with the same name replaces an earlier one. |
| `AppTabs.UniqueNamesSelectThemselves` | strategy_planner/app.py:335 | With unique names every agent is selectable by its name and maps to itself. |
| `AppTabs.CheckRun` | strategy_planner/app.py:355-360 | A run proceeds exactly when the selected name is in the map and the input is not blank. The selection is checked first, and the agent run is the one selected. |
| `AppTabs.PromptText` | strategy_planner/app.py:362-368 | The sidebar's prompt is used exactly when it is non-empty and belongs to the same agent; otherwise the stored prompt. |
| `AppTabs.ComposeSystemPrompt` | strategy_planner/app.py:361-370 | The system prompt starts with `Role: `, is the composed text with all of its trailing whitespace cut and nothing else, ends in a non-whitespace character, and is never the default prompt. |
| `AppTabs.DefaultPromptUnreachable` | strategy_planner/app.py:370 | The composed text is never blank, so `You are a helpful strategy assistant.` is never chosen. |
| `AppTabs.TrimmedInstructionsKept` | strategy_planner/app.py:370 | Instructions that do not end in whitespace are sent exactly as composed. |
| `AppTabs.OutputText` | strategy_planner/app.py:396 | The shown output is truthy: the reply when truthy, otherwise `(no output)`. |
| `AppTabs.Recent` | strategy_planner/app.py:423 | The history view has `min(20, n)` entries and is the most recent ones in order. |
| `AppTabs.RecentAfterRun` | strategy_planner/app.py:399-423 | After a run the view is the previous view plus the new run, without its oldest entry when full; the newest run is last. |
| `AppTabs.ClickRun` | strategy_planner/app.py:354-406 | Run warns exactly when the guard fails. A completed run appends one history entry with the agent's name, the input and the shown output, and leaves earlier entries as they were. |
| `AppTabs.ClickRunRaises` | strategy_planner/app.py:387-406 | When the guard passes and `run_agent` raises, the outcome is that exception and no history is recorded. |
| `AppTabs.ClickRunRecordsReply` | strategy_planner/app.py:354-406 | When the guard passes and the agent replies, the outcome is exactly the shown reply and the history with one entry (time, agent name, input, shown reply) appended. |
| `AppTabs.EchoRunRecorded` | strategy_planner/app.py:354-406 | Running an echo agent records the echoed input under the selected name. |

## Left out

- Streamlit widgets, session-state wiring, rendering, downloads and the Clear-history button are UI. Their inputs are parameters, such as the selected name, the sidebar's agent and the stored prompt.
- SQLite connections, commits and the table definition are not modelled. The table is a map with its AUTOINCREMENT counter, and its UNIQUE name constraint is the `Valid` predicate.
- The agent table (`list_agents`, `get_agent_by_id`, `save_agent`) is not part of this model; storage.py does not define it. An agent's stored prompt is a parameter, and the listed agents are an input sequence.
- `Agent` records have no missing keys or `None` values. The `a.get(...)` defaults (`"echo"`, `""`) and `(backend or "")` on `None` are not modelled.
- The canvas field columns may hold NULL in SQLite, but the model's fields are strings. `(data.get(key) or "")` therefore reduces to the field, and the `"Untitled"` and `""` defaults for NOT NULL columns are never taken.
- `requests.post`, timeouts and network exceptions are left out. The provider's response is an input, and such exceptions propagate uncaught in the source.
- `json.dumps` is a parameter: for the context, a function that may fail; for `export_json`, the row's dict. `r.json()` is an abstract JSON value, and `None` means the body is not JSON.
- Floating-point numbers, including the `temperature: 0.3` body field, are not modelled; JSON numbers are integers.
- `datetime.utcnow` and `datetime.now` are parameters (`now`, `ts`). The listing order compares ISO-8601 text in code-point order, as SQLite's `datetime()` does for well-formed timestamps; malformed timestamps, which `datetime()` turns into NULL, are not modelled.
- The AUTOINCREMENT counter is an unbounded integer; overflow is not modelled.
- `str.strip`, `str.lower` and `isspace` are limited to ASCII, with no Unicode case mapping or Unicode whitespace. The regular expression is modelled by its character class.
- Secret values are strings; `str(v)` of a non-string secret is not modelled. An unavailable Streamlit secrets store is unavailable for every key of a lookup.
- `Storage.GetCanvasByName`: scans ids in order and needs the ids to lie below the AUTOINCREMENT counter (`IdsIssued`), which the fresh table satisfies (`Storage.EmptyValid`) and `SaveCanvas` and `DeleteCanvas` preserve.
- `Storage.ListCanvases`: needs `IdsIssued` for the same reason.
- `Storage.ListingUnique`: assumes both listings have the same length, which holds for listings with one entry per row.

=== FILE: agents.dfy ===
/** `run_agent` in strategy_planner/agents.py, with the HTTP call factored
    out: `Prepare` decides, without any I/O, whether the run ends at once
    (echo fallback, missing API key) or which request to send; `RunAgent`
    combines that decision with the response the provider gave. */
module Agents {
  import opened Wrappers
  import opened Strings
  import opened PyJson
  import opened Backends
  import opened Secrets
  import opened Responses

  datatype Message = Message(role: string, content: string)

  /** The outbound POST: endpoint, headers and the JSON body's fields. The
      float `temperature` field is not modelled. */
  datatype Request = Request(
    provider: Provider,
    url: string,
    headers: seq<(string, string)>,
    model: string,
    system: Option<string>,    // Anthropic's top-level "system"
    messages: seq<Message>,
    maxTokens: Option<nat>,    // Anthropic's "max_tokens"
    stream: Option<bool>)      // Ollama's "stream"
  {
    /** The system prompt, whether carried as Anthropic's `system` field or
        as a leading `system` message. */
    function SystemPrompt(): Option<string> {
      if system.Some? then system
      else if |messages| > 0 && messages[0].role == "system" then Some(messages[0].content)
      else None
    }

    /** The content of the final `user` message. */
    function UserContent(): Option<string> {
      if |messages| > 0 && messages[|messages| - 1].role == "user" then Some(messages[|messages| - 1].content)
      else None
    }
  }

  /** Either the run's reply without any request, or the request to send. */
  datatype Dispatch = Immediate(reply: string) | Send(request: Request)

  const EchoPrefix: string := "[Echo Backend]\n"
  const ContextHeader: string := "\n\nCONTEXT (JSON):\n"
  const Unserializable: string := "\n\nCONTEXT: (unserializable)"

  /** `ctx_text`: nothing for an absent or empty context, otherwise the
      serialised context under a header, or a marker when `json.dumps`
      raises. `dumps` stands for `json.dumps(context, indent=2)`, with
      `None` meaning it raised. */
  function ContextSuffix(context: Option<Json>, dumps: Json -> Option<string>): (r: string)
    ensures context.None? || !Truthy(context.value) ==> r == []
    ensures context.Some? && Truthy(context.value) ==>
      (|ContextHeader| <= |r| && r[..|ContextHeader|] == ContextHeader) || r == Unserializable
    ensures context.Some? && Truthy(context.value) && dumps(context.value).Some? ==>
      |ContextHeader| <= |r| && r[|ContextHeader|..] == dumps(context.value).value
    ensures context.Some? && Truthy(context.value) && dumps(context.value).None? ==> r == Unserializable
  {
    if context.None? || !Truthy(context.value) then ""
    else
      match dumps(context.value)
      case Some(text) => ContextHeader + text
      case None => Unserializable
  }

  /** `"[Error] <KEY_NAME> not set."` */
  function MissingKeyReply(keyName: string): string {
    "[Error] " + keyName + " not set."
  }

  /** Headers each provider's request carries. */
  function Headers(p: Provider, apiKey: string): seq<(string, string)> {
    match p
    case OpenAI | OpenRouter => [("Authorization", "Bearer " + apiKey), ("Content-Type", "application/json")]
    case Anthropic => [("x-api-key", apiKey), ("anthropic-version", "2023-06-01"), ("content-type", "application/json")]
    case Ollama => []
  }

  /** The request body and headers of one provider branch. */
  function BuildRequest(p: Provider, apiKey: string, model: string, systemPrompt: string, content: string): (req: Request)
    ensures req.provider == p && req.url == Endpoint(p)
    ensures req.model == EffectiveModel(p, model)
    ensures req.SystemPrompt() == Some(systemPrompt)
    ensures req.UserContent() == Some(content)
    ensures p == Anthropic <==> req.maxTokens == Some(1024)
    ensures p == Ollama <==> req.stream == Some(false)
    ensures p == Ollama <==> req.headers == []
    ensures p == OpenAI || p == OpenRouter ==> ("Authorization", "Bearer " + apiKey) in req.headers
    ensures p == Anthropic ==>
      ("x-api-key", apiKey) in req.headers && ("anthropic-version", "2023-06-01") in req.headers
  {
    var m := EffectiveModel(p, model);
    match p
    case Anthropic =>
      Request(p, Endpoint(p), Headers(p, apiKey), m, Some(systemPrompt), [Message("user", content)], Some(1024), None)
    case Ollama =>
      Request(p, Endpoint(p), Headers(p, apiKey), m, None,
              [Message("system", systemPrompt), Message("user", content)], None, Some(false))
    case _ =>
      Request(p, Endpoint(p), Headers(p, apiKey), m, None,
              [Message("system", systemPrompt), Message("user", content)], None, None)
  }

  /** The key a provider branch would use, when it needs one and finds it. */
  predicate HasKey(p: Provider, store: SecretSource, env: map<string, string>) {
    KeyName(p).None? || GetSecret(store, env, [KeyName(p).value]).Some?
  }

  /** Everything `run_agent` does before `requests.post`. */
  function Prepare(backend: string, model: string, systemPrompt: string, userInput: string,
                   context: Option<Json>, dumps: Json -> Option<string>,
                   store: SecretSource, env: map<string, string>): (d: Dispatch)
    ensures RouteOf(backend) == EchoFallback ==>
      d == Immediate(EchoPrefix + (userInput + ContextSuffix(context, dumps)))
    ensures d.Send? <==> RouteOf(backend).ToProvider? && HasKey(RouteOf(backend).provider, store, env)
    ensures RouteOf(backend).ToProvider? && !HasKey(RouteOf(backend).provider, store, env) ==>
      d == Immediate(MissingKeyReply(KeyName(RouteOf(backend).provider).value))
    ensures d.Send? ==>
      var req := d.request;
      && req.provider == RouteOf(backend).provider
      && req.url == Endpoint(req.provider)
      && req.model == EffectiveModel(req.provider, model)
      && req.SystemPrompt() == Some(systemPrompt)
      && req.UserContent() == Some(userInput + ContextSuffix(context, dumps))
      && (KeyName(req.provider).None? ==> req.headers == [])
      && (KeyName(req.provider).Some? ==>
            req.headers == Headers(req.provider, GetSecret(store, env, [KeyName(req.provider).value]).value))
  {
    var content := userInput + ContextSuffix(context, dumps);
    match RouteOf(backend)
    case EchoFallback => Immediate(EchoPrefix + content)
    case ToProvider(p) =>
      match KeyName(p)
      case None => Send(BuildRequest(p, "", model, systemPrompt, content))
      case Some(keyName) =>
        match GetSecret(store, env, [keyName])
        case None => Immediate(MissingKeyReply(keyName))
        case Some(apiKey) => Send(BuildRequest(p, apiKey, model, systemPrompt, content))
  }

  /** `run_agent(...)`, given the response the provider would return to the
      request `Prepare` chose. Exceptions raised while reading the response
      are `Failure`s; the successful reply is whatever JSON value the
      provider's envelope holds (normally a string). */
  function RunAgent(backend: string, model: string, systemPrompt: string, userInput: string,
                    context: Option<Json>, dumps: Json -> Option<string>,
                    store: SecretSource, env: map<string, string>, response: HttpResponse): (r: Result<Json, PyError>)
    ensures RouteOf(backend) == EchoFallback ==>
      r == Success(JStr(EchoPrefix + (userInput + ContextSuffix(context, dumps))))
    ensures RouteOf(backend).ToProvider? && !HasKey(RouteOf(backend).provider, store, env) ==>
      r == Success(JStr(MissingKeyReply(KeyName(RouteOf(backend).provider).value)))
    ensures RouteOf(backend).ToProvider? && HasKey(RouteOf(backend).provider, store, env) && response.status != 200 ==>
      r == Success(JStr(ErrorReply(Label(RouteOf(backend).provider), response.status, response.text)))
    ensures RouteOf(backend).ToProvider? && HasKey(RouteOf(backend).provider, store, env) && response.status == 200 ==>
      r == (if response.body.None? then Failure(DecodeError)
            else ExtractContent(RouteOf(backend).provider, response.body.value))
  {
    match Prepare(backend, model, systemPrompt, userInput, context, dumps, store, env)
    case Immediate(reply) => Success(JStr(reply))
    case Send(request) => Complete(request.provider, response)
  }

  /** A run that ends before the request gives the same reply whatever a
      provider would have answered: no request is made. */
  lemma ImmediateIgnoresResponse(backend: string, model: string, systemPrompt: string, userInput: string,
                                 context: Option<Json>, dumps: Json -> Option<string>,
                                 store: SecretSource, env: map<string, string>,
                                 response1: HttpResponse, response2: HttpResponse)
    requires RouteOf(backend) == EchoFallback || !HasKey(RouteOf(backend).provider, store, env)
    ensures RunAgent(backend, model, systemPrompt, userInput, context, dumps, store, env, response1)
         == RunAgent(backend, model, systemPrompt, userInput, context, dumps, store, env, response2)
  {
  }

  /** The run depends on the backend name only through its normalised
      form. */
  lemma PrepareNormalizesBackend(backend: string, model: string, systemPrompt: string, userInput: string,
                                 context: Option<Json>, dumps: Json -> Option<string>,
                                 store: SecretSource, env: map<string, string>)
    ensures Prepare(backend, model, systemPrompt, userInput, context, dumps, store, env)
         == Prepare(Normalize(backend), model, systemPrompt, userInput, context, dumps, store, env)
  {
    RouteIgnoresCaseAndSpace(backend);
  }

  /** A lower-case provider name without padding is its own normal form. */
  lemma NormalizePlainName(name: string)
    requires name != [] && forall i :: 0 <= i < |name| ==> 'a' <= name[i] <= 'z'
    ensures Normalize(name) == name
  {
    StripUnchanged(name);
    LowerNoCapitals(name);
  }

  /** An echo run without context replies with the input under the echo
      prefix, whatever the rest of the configuration. */
  lemma EchoReply(backend: string, model: string, systemPrompt: string, userInput: string,
                  dumps: Json -> Option<string>, store: SecretSource, env: map<string, string>, response: HttpResponse)
    requires RouteOf(backend) == EchoFallback
    ensures RunAgent(backend, model, systemPrompt, userInput, None, dumps, store, env, response)
         == Success(JStr(EchoPrefix + userInput))
  {
    assert ContextSuffix(None, dumps) == "";
    assert userInput + "" == userInput;
  }

  /** The echo backend with no context replies `"[Echo Backend]\nhi"` to
      `"hi"`, with no configuration at all. */
  lemma EchoExample(model: string, systemPrompt: string, dumps: Json -> Option<string>, response: HttpResponse)
    ensures RunAgent("echo", model, systemPrompt, "hi", None, dumps, Unavailable, map[], response)
         == Success(JStr("[Echo Backend]\nhi"))
  {
    EchoRoute();
    EchoReply("echo", model, systemPrompt, "hi", dumps, Unavailable, map[], response);
    assert EchoPrefix + "hi" == "[Echo Backend]\nhi";
  }

  lemma EchoRoute()
    ensures RouteOf("echo") == EchoFallback
  {
    NormalizePlainName("echo");
  }

  lemma OpenAIRoute()
    ensures RouteOf("openai") == ToProvider(OpenAI)
  {
    NormalizePlainName("openai");
  }

  /** OpenAI with no key anywhere replies exactly
      `"[Error] OPENAI_API_KEY not set."`. */
  lemma OpenAIMissingKeyExample(model: string, systemPrompt: string, userInput: string,
                                context: Option<Json>, dumps: Json -> Option<string>, response: HttpResponse)
    ensures RunAgent("openai", model, systemPrompt, userInput, context, dumps, Unavailable, map[], response)
         == Success(JStr("[Error] OPENAI_API_KEY not set."))
  {
    OpenAIRoute();
    assert !Found(Unavailable, map[], "OPENAI_API_KEY");
    assert !HasKey(OpenAI, Unavailable, map[]);
    MissingKeyRun("openai", OpenAI, model, systemPrompt, userInput, context, dumps, Unavailable, map[], response);
    OpenAIMissingKeyText();
  }

  lemma OpenAIMissingKeyText()
    ensures MissingKeyReply("OPENAI_API_KEY") == "[Error] OPENAI_API_KEY not set."
  {
  }

  /** A provider whose key is missing replies with the missing-key error,
      whatever else is configured. */
  lemma MissingKeyRun(backend: string, p: Provider, model: string, systemPrompt: string, userInput: string,
                      context: Option<Json>, dumps: Json -> Option<string>,
                      store: SecretSource, env: map<string, string>, response: HttpResponse)
    requires RouteOf(backend) == ToProvider(p) && !HasKey(p, store, env)
    ensures RunAgent(backend, model, systemPrompt, userInput, context, dumps, store, env, response)
         == Success(JStr(MissingKeyReply(KeyName(p).value)))
  {
  }

  /** The error reply for a 500 whose body is `"server error"`. */
  lemma ServerErrorReply()
    ensures ErrorReply("OpenAI", 500, "server error") == "[OpenAI Error] 500: server error"
  {
    assert NatToString(500) == "500" by {
      assert DigitChar(5) == '5' && DigitChar(0) == '0';
      assert NatToString(5) == "5";
      assert NatToString(50) == NatToString(5) + "0";
      assert NatToString(500) == NatToString(50) + "0";
    }
    assert Take("server error", ErrorBodyLimit) == "server error";
    var prefix := ErrorPrefix("OpenAI");
    assert prefix == "[OpenAI Error] ";
    assert prefix + "500" + ": " + "server error" == "[OpenAI Error] 500: server error";
  }

  /** A 500 from OpenAI with body `"server error"` replies
      `"[OpenAI Error] 500: server error"`. */
  lemma OpenAIServerErrorExample(model: string, systemPrompt: string, userInput: string, apiKey: string,
                                 body: Option<Json>)
    requires apiKey != []
    ensures RunAgent("openai", model, systemPrompt, userInput, None, _ => None,
                     Unavailable, map["OPENAI_API_KEY" := apiKey], HttpResponse(500, "server error", body))
         == Success(JStr("[OpenAI Error] 500: server error"))
  {
    OpenAIRoute();
    var env := map["OPENAI_API_KEY" := apiKey];
    assert FromEnv(env, "OPENAI_API_KEY") == Some(apiKey);
    assert HasKey(OpenAI, Unavailable, env);
    ServerErrorReply();
    ProviderErrorRun("openai", OpenAI, model, systemPrompt, userInput, None, _ => None,
                     Unavailable, env, HttpResponse(500, "server error", body));
  }

  /** A provider that answers with a non-200 status gives the formatted
      error reply. */
  lemma ProviderErrorRun(backend: string, p: Provider, model: string, systemPrompt: string, userInput: string,
                         context: Option<Json>, dumps: Json -> Option<string>,
                         store: SecretSource, env: map<string, string>, response: HttpResponse)
    requires RouteOf(backend) == ToProvider(p) && HasKey(p, store, env) && response.status != 200
    ensures RunAgent(backend, model, systemPrompt, userInput, context, dumps, store, env, response)
         == Success(JStr(ErrorReply(Label(p), response.status, response.text)))
  {
  }
}

=== FILE: apptabs.dfy ===
/** The pure pieces of the Agents and Run tabs of strategy_planner/app.py:
    the agent search filter, the name-to-agent map the Run tab selects
    from, the checks made before a run, the system prompt a run sends, the
    output fallback and the history shown. Widgets and session state are
    not modelled; the values they would supply are parameters. */
module AppTabs {
  import opened Wrappers
  import opened Strings
  import opened PyJson
  import opened Secrets
  import opened Responses
  import opened Backends
  import opened Agents

  /** A saved agent as the agent list returns it; `role` is the agent's
      `function` column, the role the composed prompt states. */
  datatype Agent = Agent(id: int, name: string, role: string, backend: string, model: string)

  /** `search_q.lower() in a["name"].lower()`. */
  predicate Matches(a: Agent, query: string) {
    Contains(Lower(a.name), Lower(query))
  }

  /** `a` is `b` with some elements left out, the rest in their order. */
  predicate Subsequence(a: seq<Agent>, b: seq<Agent>)
    decreases |b|
  {
    if a == [] then true
    else if b == [] then false
    else (a[0] == b[0] && Subsequence(a[1..], b[1..])) || Subsequence(a, b[1..])
  }

  lemma {:induction false} SubsequenceReflexive(a: seq<Agent>)
    ensures Subsequence(a, a)
    decreases |a|
  {
    if a != [] {
      SubsequenceReflexive(a[1..]);
    }
  }

  /** The agents whose names contain the query, ignoring case, in list
      order. */
  function KeepMatching(agents: seq<Agent>, query: string): (r: seq<Agent>)
    ensures Subsequence(r, agents)
    ensures forall a :: a in r <==> a in agents && Matches(a, query)
    ensures |r| <= |agents|
    ensures forall a :: multiset(r)[a] == if Matches(a, query) then multiset(agents)[a] else 0
    decreases |agents|
  {
    if agents == [] then []
    else
      var rest := KeepMatching(agents[1..], query);
      var r := if Matches(agents[0], query) then [agents[0]] + rest else rest;
      KeepStep(agents, query, rest, r);
      r
  }

  /** One step of the filter: the head is kept exactly when it matches, in
      front of the filtered tail. */
  lemma KeepStep(agents: seq<Agent>, query: string, rest: seq<Agent>, r: seq<Agent>)
    requires agents != []
    requires Subsequence(rest, agents[1..]) && |rest| <= |agents| - 1
    requires forall a :: a in rest <==> a in agents[1..] && Matches(a, query)
    requires forall a :: multiset(rest)[a] == if Matches(a, query) then multiset(agents[1..])[a] else 0
    requires r == if Matches(agents[0], query) then [agents[0]] + rest else rest
    ensures Subsequence(r, agents) && |r| <= |agents|
    ensures forall a :: a in r <==> a in agents && Matches(a, query)
    ensures forall a :: multiset(r)[a] == if Matches(a, query) then multiset(agents)[a] else 0
  {
    if Matches(agents[0], query) {
      assert r[1..] == rest;
    } else {
      assert rest != [] ==> Subsequence(rest, agents);
    }
    KeepStepMembers(agents, query, rest, r);
    KeepStepCounts(agents, query, rest, r);
  }

  lemma KeepStepMembers(agents: seq<Agent>, query: string, rest: seq<Agent>, r: seq<Agent>)
    requires agents != []
    requires forall a :: a in rest <==> a in agents[1..] && Matches(a, query)
    requires r == if Matches(agents[0], query) then [agents[0]] + rest else rest
    ensures forall a :: a in r <==> a in agents && Matches(a, query)
  {
    assert forall a :: a in agents <==> a == agents[0] || a in agents[1..];
  }

  lemma KeepStepCounts(agents: seq<Agent>, query: string, rest: seq<Agent>, r: seq<Agent>)
    requires agents != []
    requires forall a :: multiset(rest)[a] == if Matches(a, query) then multiset(agents[1..])[a] else 0
    requires r == if Matches(agents[0], query) then [agents[0]] + rest else rest
    ensures forall a :: multiset(r)[a] == if Matches(a, query) then multiset(agents)[a] else 0
  {
    assert agents == [agents[0]] + agents[1..];
    assert multiset(agents) == multiset{agents[0]} + multiset(agents[1..]);
    if Matches(agents[0], query) {
      assert multiset(r) == multiset{agents[0]} + multiset(rest);
    }
  }

  /** The Agents tab's list: every agent for an empty query, otherwise the
      ones whose names match. */
  function SearchFilter(agents: seq<Agent>, query: string): (r: seq<Agent>)
    ensures query == [] ==> r == agents
    ensures Subsequence(r, agents)
    ensures forall a :: a in r <==> a in agents && Matches(a, query)
    ensures forall a :: multiset(r)[a] == if Matches(a, query) then multiset(agents)[a] else 0
  {
    if query == [] then
      SubsequenceReflexive(agents);
      assert forall a :: a in agents ==> Matches(a, query) by {
        forall a | a in agents ensures Matches(a, query) {
          assert Lower(a.name)[..0] == Lower(query);
        }
      }
      agents
    else KeepMatching(agents, query)
  }

  /** The empty-query branch only saves work: every name contains the empty
      string, so matching keeps every agent. */
  lemma {:induction false} EmptyQueryKeepsAll(agents: seq<Agent>)
    ensures KeepMatching(agents, "") == agents
    decreases |agents|
  {
    if agents != [] {
      assert Lower(agents[0].name)[..0] == Lower("");
      EmptyQueryKeepsAll(agents[1..]);
    }
  }

  /** Filtering an already filtered list by the same query changes
      nothing. */
  lemma {:induction false} KeepMatchingIdempotent(agents: seq<Agent>, query: string)
    ensures KeepMatching(KeepMatching(agents, query), query) == KeepMatching(agents, query)
    decreases |agents|
  {
    if agents != [] {
      KeepMatchingIdempotent(agents[1..], query);
      var rest := KeepMatching(agents[1..], query);
      if Matches(agents[0], query) {
        assert ([agents[0]] + rest)[1..] == rest;
      }
    }
  }

  /** The query's case does not matter. */
  lemma QueryCaseIgnored(agents: seq<Agent>, query: string)
    ensures SearchFilter(agents, query) == SearchFilter(agents, Lower(query))
  {
    assert Lower(Lower(query)) == Lower(query);
    assert forall a :: Matches(a, query) == Matches(a, Lower(query));
    if query != [] {
      SameMatchesSameFilter(agents, query, Lower(query));
    }
  }

  lemma {:induction false} SameMatchesSameFilter(agents: seq<Agent>, q1: string, q2: string)
    requires forall a :: Matches(a, q1) == Matches(a, q2)
    ensures KeepMatching(agents, q1) == KeepMatching(agents, q2)
    decreases |agents|
  {
    if agents != [] {
      SameMatchesSameFilter(agents[1..], q1, q2);
    }
  }

  /** `{a["name"]: a for a in agents}`: a later agent with the same name
      replaces an earlier one. */
  function AgentMap(agents: seq<Agent>): (m: map<string, Agent>)
    ensures m.Keys == set a | a in agents :: a.name
    ensures forall n :: n in m ==> m[n].name == n && m[n] in agents
    ensures forall i :: 0 <= i < |agents| && LastOfName(agents, i) ==> m[agents[i].name] == agents[i]
    decreases |agents|
  {
    if agents == [] then map[]
    else
      var init := agents[..|agents| - 1];
      var last := agents[|agents| - 1];
      assert agents == init + [last];
      var m := AgentMap(init);
      NamesOfSnoc(init, last);
      var m' := m[last.name := last];
      assert forall i :: 0 <= i < |agents| && LastOfName(agents, i) ==> m'[agents[i].name] == agents[i] by {
        forall i | 0 <= i < |agents| - 1 && LastOfName(agents, i)
          ensures m'[agents[i].name] == agents[i]
        {
          LastOfNameInInit(agents, i);
        }
      }
      m'
  }

  /** No agent after `agents[i]` has its name. */
  predicate LastOfName(agents: seq<Agent>, i: int)
    requires 0 <= i < |agents|
  {
    forall j :: i < j < |agents| ==> agents[j].name != agents[i].name
  }

  lemma LastOfNameInInit(agents: seq<Agent>, i: int)
    requires 0 <= i < |agents| - 1 && LastOfName(agents, i)
    ensures LastOfName(agents[..|agents| - 1], i)
    ensures agents[|agents| - 1].name != agents[i].name
  {
  }

  lemma NamesOfSnoc(init: seq<Agent>, last: Agent)
    ensures (set a | a in init + [last] :: a.name) == (set a | a in init :: a.name) + {last.name}
  {
    assert forall a :: a in init + [last] <==> a in init || a == last;
  }

  /** With unique names, as the agent table keeps them, every agent can be
      selected by its name and runs as itself. */
  lemma UniqueNamesSelectThemselves(agents: seq<Agent>)
    requires forall i, j :: 0 <= i < j < |agents| ==> agents[i].name != agents[j].name
    ensures forall a :: a in agents ==> a.name in AgentMap(agents) && AgentMap(agents)[a.name] == a
  {
  }

  /** What clicking Run does first: warn, or go ahead with the selected
      agent. */
  datatype Guard = SelectAgentFirst | EnterTaskInput | Proceed(agent: Agent)

  /** The checks before a run: the selection is checked before the input. */
  function CheckRun(selected: string, runMap: map<string, Agent>, userInput: string): (g: Guard)
    ensures g.Proceed? <==> selected in runMap && !IsBlank(userInput)
    ensures selected !in runMap ==> g == SelectAgentFirst
    ensures g == EnterTaskInput <==> selected in runMap && IsBlank(userInput)
    ensures g.Proceed? ==> g.agent == runMap[selected]
  {
    if selected !in runMap then SelectAgentFirst
    else if IsBlank(userInput) then EnterTaskInput
    else Proceed(runMap[selected])
  }

  /** The warning shown for a refused run. */
  function GuardWarning(g: Guard): string
    requires !g.Proceed?
  {
    if g == SelectAgentFirst then "Select an agent first." else "Enter a task input."
  }

  /** The agent loaded in the sidebar: its name and its (possibly edited)
      prompt, `None` when the session holds none. */
  datatype Sidebar = Sidebar(name: Option<string>, prompt: Option<string>)

  /** The instructions a run uses: the sidebar's prompt when it is non-empty
      and the sidebar shows the same agent, otherwise the stored one.
      `stored` is the prompt saved for the agent, `""` when there is none. */
  function PromptText(a: Agent, sidebar: Sidebar, stored: string): (r: string)
    ensures sidebar.name != Some(a.name) ==> r == stored
    ensures sidebar.prompt.None? || sidebar.prompt == Some("") ==> r == stored
    ensures r == stored || (sidebar.name == Some(a.name) && sidebar.prompt == Some(r) && r != [])
    ensures sidebar.name == Some(a.name) && sidebar.prompt.Some? && sidebar.prompt.value != [] ==>
      r == sidebar.prompt.value
  {
    if sidebar.prompt.Some? && sidebar.prompt.value != [] && sidebar.name == Some(a.name) then sidebar.prompt.value
    else stored
  }

  const RolePrefix: string := "Role: "
  const InstructionsHeader: string := "\n\nInstructions: "

  /** The prompt used when the composed one is blank. */
  const DefaultSystemPrompt: string := "You are a helpful strategy assistant."

  /** The prompt before the final strip. */
  function RawSystemPrompt(role: string, promptText: string): string {
    RolePrefix + Strip(role) + InstructionsHeader + promptText
  }

  /** `sys_full`: the role and the instructions, stripped, or the default
      prompt when nothing is left. */
  function ComposeSystemPrompt(role: string, promptText: string): (r: string)
    ensures TrailingSpaceCut(r, RawSystemPrompt(role, promptText))
    ensures IsPrefix(RolePrefix, r)
    ensures r != DefaultSystemPrompt
  {
    StrippedPromptShape(role, promptText);
    OrDefaultPrompt(Strip(RawSystemPrompt(role, promptText)))
  }

  /** `text or "You are a helpful strategy assistant."` */
  function OrDefaultPrompt(text: string): (r: string)
    ensures text != [] ==> r == text
    ensures text == [] ==> r == DefaultSystemPrompt
  {
    if text == [] then DefaultSystemPrompt else text
  }

  /** The stripped raw prompt keeps the role prefix and loses only trailing
      whitespace. */
  lemma StrippedPromptShape(role: string, promptText: string)
    ensures var raw := RawSystemPrompt(role, promptText);
      var s := Strip(raw);
      && TrailingSpaceCut(s, raw) && IsPrefix(RolePrefix, s) && s != DefaultSystemPrompt
  {
    var raw := RawSystemPrompt(role, promptText);
    var p := |RolePrefix| + |Strip(role)| + 2;
    RawSystemPromptShape(role, promptText);
    StripFromNonSpaceStart(raw, p);
    PrefixWithin(RolePrefix, Strip(raw), raw);
    DefaultLacksRolePrefix();
  }

  /** The raw prompt starts with the role prefix, and the `I` of
      "Instructions" sits at a known index. */
  lemma RawSystemPromptShape(role: string, promptText: string)
    ensures var raw := RawSystemPrompt(role, promptText);
      var p := |RolePrefix| + |Strip(role)| + 2;
      && p < |raw| && !IsSpace(raw[0]) && !IsSpace(raw[p])
      && IsPrefix(RolePrefix, raw)
  {
    PromptShape(Strip(role), promptText);
  }

  lemma PromptShape(roleText: string, promptText: string)
    ensures var raw := RolePrefix + roleText + InstructionsHeader + promptText;
      var p := |RolePrefix| + |roleText| + 2;
      && p < |raw| && !IsSpace(raw[0]) && !IsSpace(raw[p])
      && IsPrefix(RolePrefix, raw)
  {
    var head := RolePrefix + roleText;
    var x := head + InstructionsHeader;
    var raw := x + promptText;
    var p := |head| + 2;
    assert x[p] == InstructionsHeader[2];
    assert raw[p] == x[p];
    assert raw[..|RolePrefix|] == head[..|RolePrefix|];
  }

  /** A prefix of the longer string that fits in the shorter one is a
      prefix of it too. */
  lemma PrefixWithin(a: string, b: string, c: string)
    requires IsPrefix(a, c) && IsPrefix(b, c) && |a| <= |b|
    ensures IsPrefix(a, b)
  {
    assert b[..|a|] == c[..|b|][..|a|];
  }

  lemma DefaultLacksRolePrefix()
    ensures !IsPrefix(RolePrefix, DefaultSystemPrompt)
  {
    assert DefaultSystemPrompt[0] != RolePrefix[0];
  }

  /** The default prompt is never used: a composed prompt always keeps its
      role line. */
  lemma DefaultPromptUnreachable(role: string, promptText: string)
    ensures !IsBlank(RawSystemPrompt(role, promptText))
  {
    var raw := RawSystemPrompt(role, promptText);
    assert raw[0] == 'R';
  }

  /** Instructions without trailing whitespace are sent exactly as
      composed. */
  lemma TrimmedInstructionsKept(role: string, promptText: string)
    requires promptText != [] && !IsSpace(promptText[|promptText| - 1])
    ensures ComposeSystemPrompt(role, promptText) == RawSystemPrompt(role, promptText)
  {
    var raw := RawSystemPrompt(role, promptText);
    assert raw[|raw| - 1] == promptText[|promptText| - 1];
    RawSystemPromptShape(role, promptText);
    StripUnchanged(raw);
  }

  /** `output or "(no output)"`: a falsy reply is replaced by a marker. */
  function OutputText(output: Json): (r: Json)
    ensures Truthy(r)
    ensures Truthy(output) ==> r == output
    ensures !Truthy(output) ==> r == JStr("(no output)")
  {
    if Truthy(output) then output else JStr("(no output)")
  }

  /** One entry of the run history. */
  datatype HistoryItem = HistoryItem(ts: string, agent: string, input: string, output: Json)

  /** How many runs the history shows. */
  const HistoryShown: nat := 20

  /** `history[-20:]`: the most recent runs, oldest first. */
  function Recent(history: seq<HistoryItem>): (r: seq<HistoryItem>)
    ensures |r| == if |history| < HistoryShown then |history| else HistoryShown
    ensures r == history[|history| - |r|..]
  {
    if |history| <= HistoryShown then history else history[|history| - HistoryShown..]
  }

  /** After a run, the view is the previous view with the new run added
      and, when it was full, its oldest entry dropped. */
  lemma RecentAfterRun(history: seq<HistoryItem>, item: HistoryItem)
    ensures Recent(history + [item]) == Recent(Recent(history) + [item])
    ensures Recent(history + [item])[|Recent(history + [item])| - 1] == item
  {
    var h := history + [item];
    var v := Recent(history) + [item];
    assert v == h[|h| - |v|..];
    var n := |Recent(h)|;
    assert n == |Recent(v)|;
    SuffixOfSuffix(h, v, n);
  }

  /** The last `n` items of a suffix are the last `n` items of the whole. */
  lemma SuffixOfSuffix<T>(h: seq<T>, v: seq<T>, n: nat)
    requires |v| <= |h| && v == h[|h| - |v|..] && n <= |v|
    ensures v[|v| - n..] == h[|h| - n..]
  {
  }

  /** What the world outside the program supplies to a run: `json.dumps`,
      the secrets, the stored prompt of each agent id, and the provider's
      response. */
  datatype World = World(
    dumps: Json -> Option<string>,
    store: SecretSource,
    env: map<string, string>,
    storedPrompt: int -> string,
    response: HttpResponse)

  /** The result of clicking Run. */
  datatype RunOutcome =
    | Warned(message: string)
    | Ran(shown: Json, history: seq<HistoryItem>)
    | Raised(error: PyError)

  /** Clicking Run: check, compose the system prompt, run the agent, show
      the reply and append it to the history. An exception from the run
      propagates and nothing is recorded. */
  function ClickRun(history: seq<HistoryItem>, runMap: map<string, Agent>, selected: string, userInput: string,
                    sidebar: Sidebar, context: Option<Json>, w: World, ts: string): (o: RunOutcome)
    ensures o.Warned? <==> !(selected in runMap && !IsBlank(userInput))
    ensures o.Ran? ==>
      && |o.history| == |history| + 1
      && o.history[..|history|] == history
      && o.history[|history|] == HistoryItem(ts, runMap[selected].name, userInput, o.shown)
      && Truthy(o.shown)
  {
    match CheckRun(selected, runMap, userInput)
    case Proceed(a) =>
      Record(history, ts, a.name, userInput, RunSelected(a, sidebar, userInput, context, w))
    case SelectAgentFirst => Warned(GuardWarning(SelectAgentFirst))
    case EnterTaskInput => Warned(GuardWarning(EnterTaskInput))
  }

  /** `run_agent` as the Run tab calls it for agent `a`: the composed system
      prompt, the task input and the context. */
  function RunSelected(a: Agent, sidebar: Sidebar, userInput: string, context: Option<Json>, w: World)
    : Result<Json, PyError>
  {
    RunAgent(a.backend, a.model, ComposeSystemPrompt(a.role, PromptText(a, sidebar, w.storedPrompt(a.id))),
             userInput, context, w.dumps, w.store, w.env, w.response)
  }

  /** Showing a run's result: a raised exception propagates, a reply is
      shown (or its no-output marker) and appended to the history. */
  function Record(history: seq<HistoryItem>, ts: string, name: string, userInput: string,
                  reply: Result<Json, PyError>): (o: RunOutcome)
    ensures reply.Failure? ==> o == Raised(reply.error)
    ensures reply.Success? ==>
      o == Ran(OutputText(reply.value), history + [HistoryItem(ts, name, userInput, OutputText(reply.value))])
    ensures o.Ran? ==> Truthy(o.shown)
    ensures o.Ran? ==>
      && |o.history| == |history| + 1
      && o.history[..|history|] == history
      && o.history[|history|] == HistoryItem(ts, name, userInput, o.shown)
  {
    if reply.Failure? then Raised(reply.error)
    else
      var shown := OutputText(reply.value);
      var h := history + [HistoryItem(ts, name, userInput, shown)];
      assert h[..|history|] == history;
      Ran(shown, h)
  }

  /** A run through the echo backend always succeeds and records the echoed
      input under the selected agent's name. */
  lemma EchoRunRecorded(history: seq<HistoryItem>, agents: seq<Agent>, selected: string, userInput: string,
                        sidebar: Sidebar, w: World, ts: string)
    requires selected in AgentMap(agents) && !IsBlank(userInput)
    requires RouteOf(AgentMap(agents)[selected].backend) == EchoFallback
    ensures var o := ClickRun(history, AgentMap(agents), selected, userInput, sidebar, None, w, ts);
      && o.Ran?
      && o.shown == JStr(EchoPrefix + userInput)
      && o.history == history + [HistoryItem(ts, selected, userInput, JStr(EchoPrefix + userInput))]
  {
    var m := AgentMap(agents);
    var a := m[selected];
    assert a.name == selected;
    EchoRunRecordedIn(history, m, selected, userInput, sidebar, w, ts);
  }

  /** `EchoRunRecorded` for any table of runnable agents. */
  lemma EchoRunRecordedIn(history: seq<HistoryItem>, runMap: map<string, Agent>, selected: string, userInput: string,
                          sidebar: Sidebar, w: World, ts: string)
    requires selected in runMap && !IsBlank(userInput)
    requires RouteOf(runMap[selected].backend) == EchoFallback
    ensures var o := ClickRun(history, runMap, selected, userInput, sidebar, None, w, ts);
      && o.Ran?
      && o.shown == JStr(EchoPrefix + userInput)
      && o.history == history + [HistoryItem(ts, runMap[selected].name, userInput, JStr(EchoPrefix + userInput))]
  {
    var a := runMap[selected];
    var systemPrompt := ComposeSystemPrompt(a.role, PromptText(a, sidebar, w.storedPrompt(a.id)));
    EchoReply(a.backend, a.model, systemPrompt, userInput, w.dumps, w.store, w.env, w.response);
    ClickRunRecordsReply(history, runMap, selected, userInput, sidebar, None, w, ts, JStr(EchoPrefix + userInput));
  }

  /** A run whose agent replies records exactly that reply (or the
      no-output marker) after the earlier history. */
  lemma ClickRunRecordsReply(history: seq<HistoryItem>, runMap: map<string, Agent>, selected: string, userInput: string,
                             sidebar: Sidebar, context: Option<Json>, w: World, ts: string, v: Json)
    requires selected in runMap && !IsBlank(userInput)
    requires RunSelected(runMap[selected], sidebar, userInput, context, w) == Success(v)
    ensures ClickRun(history, runMap, selected, userInput, sidebar, context, w, ts)
         == Ran(OutputText(v), history + [HistoryItem(ts, runMap[selected].name, userInput, OutputText(v))])
  {
    ClickRunProceeds(history, runMap, selected, userInput, sidebar, context, w, ts);
  }

  /** A run whose agent raises shows the exception and records nothing: the
      outcome carries that error and no history. */
  lemma ClickRunRaises(history: seq<HistoryItem>, runMap: map<string, Agent>, selected: string, userInput: string,
                       sidebar: Sidebar, context: Option<Json>, w: World, ts: string, e: PyError)
    requires selected in runMap && !IsBlank(userInput)
    requires RunSelected(runMap[selected], sidebar, userInput, context, w) == Failure(e)
    ensures ClickRun(history, runMap, selected, userInput, sidebar, context, w, ts) == Raised(e)
  {
    ClickRunProceeds(history, runMap, selected, userInput, sidebar, context, w, ts);
  }

  /** A click that passes the guard records what running the selected agent
      gives. */
  lemma ClickRunProceeds(history: seq<HistoryItem>, runMap: map<string, Agent>, selected: string, userInput: string,
                         sidebar: Sidebar, context: Option<Json>, w: World, ts: string)
    requires selected in runMap && !IsBlank(userInput)
    ensures ClickRun(history, runMap, selected, userInput, sidebar, context, w, ts)
         == Record(history, ts, runMap[selected].name, userInput, RunSelected(runMap[selected], sidebar, userInput, context, w))
  {
    assert CheckRun(selected, runMap, userInput) == Proceed(runMap[selected]);
  }
}

=== FILE: backends.dfy ===
/** The closed set of language-model providers the dispatcher can reach,
    with each provider's protocol constants (strategy_planner/agents.py). */
module Backends {
  import opened Wrappers
  import opened Strings

  datatype Provider = OpenAI | Anthropic | OpenRouter | Ollama

  /** Where a backend name sends a run: one of the providers, or the
      offline echo fallback for every other name. */
  datatype Route = ToProvider(provider: Provider) | EchoFallback

  /** `(backend or "").strip().lower()`. */
  function Normalize(backend: string): string {
    Lower(Strip(backend))
  }

  /** The `if`/`elif` chain on the normalised backend name. */
  function RouteOf(backend: string): (r: Route)
    ensures r == ToProvider(OpenAI) <==> Normalize(backend) == "openai"
    ensures r == ToProvider(Anthropic) <==> Normalize(backend) == "anthropic"
    ensures r == ToProvider(OpenRouter) <==> Normalize(backend) == "openrouter"
    ensures r == ToProvider(Ollama) <==> Normalize(backend) == "ollama"
  {
    var b := Normalize(backend);
    if b == "openai" then ToProvider(OpenAI)
    else if b == "anthropic" then ToProvider(Anthropic)
    else if b == "openrouter" then ToProvider(OpenRouter)
    else if b == "ollama" then ToProvider(Ollama)
    else EchoFallback
  }

  /** The name used in `[<Label> Error]` replies. */
  function Label(p: Provider): string {
    match p
    case OpenAI => "OpenAI"
    case Anthropic => "Anthropic"
    case OpenRouter => "OpenRouter"
    case Ollama => "Ollama"
  }

  /** The secret holding the provider's API key; the local Ollama server
      needs none. */
  function KeyName(p: Provider): Option<string> {
    match p
    case OpenAI => Some("OPENAI_API_KEY")
    case Anthropic => Some("ANTHROPIC_API_KEY")
    case OpenRouter => Some("OPENROUTER_API_KEY")
    case Ollama => None
  }

  /** Model used when the caller's model name is blank. */
  function DefaultModel(p: Provider): string {
    match p
    case OpenAI => "gpt-4o-mini"
    case Anthropic => "claude-3-5-sonnet-latest"
    case OpenRouter => "openai/gpt-4o-mini"
    case Ollama => "llama3.1"
  }

  function Endpoint(p: Provider): string {
    match p
    case OpenAI => "https://api.openai.com/v1/chat/completions"
    case Anthropic => "https://api.anthropic.com/v1/messages"
    case OpenRouter => "https://openrouter.ai/api/v1/chat/completions"
    case Ollama => "http://localhost:11434/api/chat"
  }

  /** `(model or "").strip() or <default>`: the stripped model name, or the
      provider's default when nothing is left. */
  function EffectiveModel(p: Provider, model: string): (r: string)
    ensures r != []
    ensures IsBlank(model) ==> r == DefaultModel(p)
    ensures !IsBlank(model) ==> r == Strip(model)
  {
    var m := Strip(model);
    if m == [] then DefaultModel(p) else m
  }

  lemma LowerCharSpace(c: char)
    ensures IsSpace(LowerChar(c)) <==> IsSpace(c)
    ensures LowerChar(LowerChar(c)) == LowerChar(c)
  {
  }

  /** Normalising an already normalised name changes nothing. */
  lemma NormalizeIdempotent(backend: string)
    ensures Normalize(Normalize(backend)) == Normalize(backend)
  {
    var s := Strip(backend);
    var n := Lower(s);
    if n != [] {
      LowerCharSpace(s[0]);
      LowerCharSpace(s[|s| - 1]);
    }
    StripUnchanged(n);
    LowerIdempotent(s);
  }

  /** A backend routes the same way as its normalised name: surrounding
      whitespace and upper case do not matter. */
  lemma {:induction false} RouteIgnoresCaseAndSpace(backend: string)
    ensures RouteOf(backend) == RouteOf(Normalize(backend))
  {
    NormalizeIdempotent(backend);
  }

  /** `" OpenAI "` reaches the OpenAI provider. */
  lemma PaddedMixedCaseRoutes()
    ensures RouteOf(" OpenAI ") == ToProvider(OpenAI)
  {
    var s := " OpenAI ";
    assert LeadingSpaces(s[1..]) == 0;
    assert LeadingSpaces(s) == 1;
    assert s[..|s| - 1] == " OpenAI";
    assert TrailingStart(s) == 7;
    assert Strip(s) == "OpenAI";
    assert Lower("OpenAI") == "openai";
  }

  /** Only the four provider names, after normalisation, reach a provider;
      `"echo"` and every other name fall back to echo. */
  lemma EchoFallbackIffUnknown(backend: string)
    ensures RouteOf(backend) == EchoFallback <==>
      Normalize(backend) !in {"openai", "anthropic", "openrouter", "ollama"}
  {
  }
}

=== FILE: export.dfy ===
/** The two exporters of strategy_planner/storage.py: `export_markdown`,
    which renders a canvas as a fixed Markdown document, and `export_json`,
    which serialises the row as a JSON object. Both answer a fixed text for
    an id with no row. */
module Export {
  import opened Wrappers
  import opened Strings
  import opened PyJson
  import opened Storage

  /** The Markdown export of an id with no row. */
  const NotFoundMarkdown: string := "# Value Proposition Canvas\n\n(Not found)"

  /** The JSON export of an id with no row. */
  const NotFoundJson: string := "{}"

  /** The document's first line up to the canvas name; the separator is an
      em dash (U+2014). */
  const TitlePrefix: string := "# Value Proposition Canvas — "

  /** `sec(title, key)`: a level-2 heading, a blank line, the stripped field
      or `-` when nothing is left, and a closing newline. */
  function Section(title: string, value: string): string {
    var v := Strip(value);
    "## " + title + "\n\n" + (if v == [] then "-" else v) + "\n"
  }

  /** The six rendered sections, in document order. */
  function Sections(f: Fields): (r: seq<string>)
    ensures |r| == 6
  {
    [ Section("Customer Jobs", f.customerJobs),
      Section("Pains", f.pains),
      Section("Gains", f.gains),
      Section("Products & Services", f.productsServices),
      Section("Gain Creators", f.gainCreators),
      Section("Pain Relievers", f.painRelievers) ]
  }

  /** The list `md` that `export_markdown` joins, around six rendered
      sections. */
  function DocumentLines(name: string, created: string, updated: string, secs: seq<string>): (r: seq<string>)
    requires |secs| == 6
    ensures |r| == 13
  {
    [ TitlePrefix + name,
      "",
      "Created: " + created,
      "Last Updated: " + updated,
      "",
      "# Customer Segment",
      secs[0], secs[1], secs[2],
      "# Value Proposition",
      secs[3], secs[4], secs[5] ]
  }

  /** The Markdown document of a stored canvas. */
  function CanvasMarkdown(c: Canvas): string {
    JoinLines(DocumentLines(c.name, c.createdAt, c.updatedAt, Sections(c.fields)))
  }

  /** `export_markdown(canvas_id)`. */
  function ExportMarkdown(s: Store, id: int): (r: string)
    ensures id !in s.rows ==> r == NotFoundMarkdown
    ensures id in s.rows ==> IsPrefix(TitlePrefix, r)
    ensures id in s.rows ==> r == CanvasMarkdown(s.rows[id])
    ensures r == NotFoundMarkdown <==> id !in s.rows
  {
    match GetCanvasById(s, id)
    case None => NotFoundMarkdown
    case Some(c) =>
      MarkdownStartsWithTitle(c);
      NotFoundHasNoTitle();
      CanvasMarkdown(c)
  }

  /** Every exported document opens with the titled heading. */
  lemma MarkdownStartsWithTitle(c: Canvas)
    ensures IsPrefix(TitlePrefix, CanvasMarkdown(c))
  {
    var lines := DocumentLines(c.name, c.createdAt, c.updatedAt, Sections(c.fields));
    JoinLinesStartsWithFirst(lines);
    PrefixTransitive(TitlePrefix, lines[0], JoinLines(lines));
  }

  /** The not-found text does not open with the titled heading. */
  lemma NotFoundHasNoTitle()
    ensures !IsPrefix(TitlePrefix, NotFoundMarkdown)
  {
    assert NotFoundMarkdown[26] != TitlePrefix[26];
  }

  /** The document written out as one string: the header lines, then the
      three Customer Segment sections, then the three Value Proposition
      sections, every part separated by one newline. */
  lemma DocumentLayout(name: string, created: string, updated: string, secs: seq<string>)
    requires |secs| == 6
    ensures JoinLines(DocumentLines(name, created, updated, secs)) ==
        TitlePrefix + name + "\n"
        + "\n"
        + "Created: " + created + "\n"
        + "Last Updated: " + updated + "\n"
        + "\n"
        + "# Customer Segment" + "\n"
        + secs[0] + "\n" + secs[1] + "\n" + secs[2] + "\n"
        + "# Value Proposition" + "\n"
        + secs[3] + "\n" + secs[4] + "\n" + secs[5]
  {
    JoinThirteen(DocumentLines(name, created, updated, secs));
  }

  /** The document of a canvas, written out, with its sections in the
      order Customer Jobs, Pains, Gains, Products & Services, Gain Creators,
      Pain Relievers. */
  lemma MarkdownLayout(c: Canvas)
    ensures var f := c.fields;
      CanvasMarkdown(c) ==
        TitlePrefix + c.name + "\n"
        + "\n"
        + "Created: " + c.createdAt + "\n"
        + "Last Updated: " + c.updatedAt + "\n"
        + "\n"
        + "# Customer Segment" + "\n"
        + Section("Customer Jobs", f.customerJobs) + "\n"
        + Section("Pains", f.pains) + "\n"
        + Section("Gains", f.gains) + "\n"
        + "# Value Proposition" + "\n"
        + Section("Products & Services", f.productsServices) + "\n"
        + Section("Gain Creators", f.gainCreators) + "\n"
        + Section("Pain Relievers", f.painRelievers)
  {
    var secs := Sections(c.fields);
    DocumentLayout(c.name, c.createdAt, c.updatedAt, secs);
  }

  /** `"\n".join` of thirteen parts, written out. */
  lemma JoinThirteen(r: seq<string>)
    requires |r| == 13
    ensures JoinLines(r) == r[0] + "\n" + r[1] + "\n" + r[2] + "\n" + r[3] + "\n" + r[4] + "\n" + r[5] + "\n"
      + r[6] + "\n" + r[7] + "\n" + r[8] + "\n" + r[9] + "\n" + r[10] + "\n" + r[11] + "\n" + r[12]
  {
    forall k | 0 < k < 13
      ensures JoinLines(r[..k + 1]) == JoinLines(r[..k]) + "\n" + r[k]
    {
      JoinLinesPrefix(r, k);
    }
    assert JoinLines(r[..1]) == r[0];
    assert r[..13] == r;
  }

  /** The section of a field with no text. */
  function DashSection(title: string): string {
    "## " + title + "\n\n-\n"
  }

  /** An empty or whitespace-only field renders as a lone `-`. */
  lemma BlankFieldRendersDash(title: string, value: string)
    requires forall i :: 0 <= i < |value| ==> IsSpace(value[i])
    ensures Section(title, value) == DashSection(title)
  {
  }

  /** A field with text renders as that text without its surrounding
      whitespace: a slice of the field that keeps everything but leading
      and trailing whitespace. */
  lemma FilledFieldRendersStripped(title: string, value: string)
    requires exists i :: 0 <= i < |value| && !IsSpace(value[i])
    ensures exists b, e ::
      && 0 <= b <= e <= |value| && SpaceOutside(value, b, e)
      && Section(title, value) == "## " + title + "\n\n" + value[b..e] + "\n"
      && !IsSpace(value[b]) && !IsSpace(value[e - 1])
  {
    StripNonBlank(value);
    var b, e :| 0 <= b < e <= |value| && Strip(value) == value[b..e] && SpaceOutside(value, b, e)
                && !IsSpace(value[b]) && !IsSpace(value[e - 1]);
    assert Section(title, value) == "## " + title + "\n\n" + value[b..e] + "\n";
  }

  /** Padding a field with whitespace does not change the document: it
      depends on each field only through its stripped text. */
  lemma MarkdownIgnoresPadding(c: Canvas, d: Canvas)
    requires c.name == d.name && c.createdAt == d.createdAt && c.updatedAt == d.updatedAt
    requires var f, g := c.fields, d.fields;
      && Strip(f.customerJobs) == Strip(g.customerJobs)
      && Strip(f.pains) == Strip(g.pains)
      && Strip(f.gains) == Strip(g.gains)
      && Strip(f.productsServices) == Strip(g.productsServices)
      && Strip(f.gainCreators) == Strip(g.gainCreators)
      && Strip(f.painRelievers) == Strip(g.painRelievers)
    ensures CanvasMarkdown(c) == CanvasMarkdown(d)
  {
    assert Sections(c.fields) == Sections(d.fields);
  }

  /** Every section, with its heading, appears in the exported document. */
  lemma MarkdownHasEverySection(s: Store, id: int)
    requires id in s.rows
    ensures forall i :: 0 <= i < 6 ==> Contains(ExportMarkdown(s, id), Sections(s.rows[id].fields)[i])
  {
    var c := s.rows[id];
    DocumentContainsSections(c.name, c.createdAt, c.updatedAt, Sections(c.fields));
  }

  lemma DocumentContainsSections(name: string, created: string, updated: string, secs: seq<string>)
    requires |secs| == 6
    ensures forall i :: 0 <= i < 6 ==> Contains(JoinLines(DocumentLines(name, created, updated, secs)), secs[i])
  {
    var lines := DocumentLines(name, created, updated, secs);
    var md := JoinLines(lines);
    forall i | 0 <= i < 6
      ensures Contains(md, secs[i])
    {
      var k := if i < 3 then i + 6 else i + 7;
      assert lines[k] == secs[i];
      JoinLinesContainsPart(lines, k);
      ContainsIffOccurs(md, secs[i]);
    }
  }

  /** A canvas with every field empty exports as headings over dashes. */
  lemma EmptyCanvasMarkdown(name: string, created: string, updated: string)
    ensures CanvasMarkdown(Canvas(name, Fields("", "", "", "", "", ""), created, updated)) ==
        TitlePrefix + name + "\n"
        + "\n"
        + "Created: " + created + "\n"
        + "Last Updated: " + updated + "\n"
        + "\n"
        + "# Customer Segment" + "\n"
        + DashSection("Customer Jobs") + "\n"
        + DashSection("Pains") + "\n"
        + DashSection("Gains") + "\n"
        + "# Value Proposition" + "\n"
        + DashSection("Products & Services") + "\n"
        + DashSection("Gain Creators") + "\n"
        + DashSection("Pain Relievers")
  {
    var c := Canvas(name, Fields("", "", "", "", "", ""), created, updated);
    MarkdownLayout(c);
    var f := c.fields;
    BlankFieldRendersDash("Customer Jobs", f.customerJobs);
    BlankFieldRendersDash("Pains", f.pains);
    BlankFieldRendersDash("Gains", f.gains);
    BlankFieldRendersDash("Products & Services", f.productsServices);
    BlankFieldRendersDash("Gain Creators", f.gainCreators);
    BlankFieldRendersDash("Pain Relievers", f.painRelievers);
  }

  /** The columns of the `canvases` table. */
  const Columns: set<string> := {"id", "name", "customer_jobs", "pains", "gains", "products_services",
                                 "gain_creators", "pain_relievers", "created_at", "updated_at"}

  /** The dict `_row_to_dict` builds from a row: every column by name. */
  function RowJson(id: int, c: Canvas): (j: Json)
    ensures j.JObj? && j.fields.Keys == Columns
  {
    var f := c.fields;
    JObj(map[
      "id" := JNum(id),
      "name" := JStr(c.name),
      "customer_jobs" := JStr(f.customerJobs),
      "pains" := JStr(f.pains),
      "gains" := JStr(f.gains),
      "products_services" := JStr(f.productsServices),
      "gain_creators" := JStr(f.gainCreators),
      "pain_relievers" := JStr(f.painRelievers),
      "created_at" := JStr(c.createdAt),
      "updated_at" := JStr(c.updatedAt)])
  }

  /** Reads a row back from its dict; `None` when a column is missing or has
      the wrong kind of value. */
  function RowOfJson(j: Json): Option<Row> {
    if !j.JObj? then None
    else
      var m := j.fields;
      if && "id" in m && m["id"].JNum?
         && "name" in m && m["name"].JStr?
         && "customer_jobs" in m && m["customer_jobs"].JStr?
         && "pains" in m && m["pains"].JStr?
         && "gains" in m && m["gains"].JStr?
         && "products_services" in m && m["products_services"].JStr?
         && "gain_creators" in m && m["gain_creators"].JStr?
         && "pain_relievers" in m && m["pain_relievers"].JStr?
         && "created_at" in m && m["created_at"].JStr?
         && "updated_at" in m && m["updated_at"].JStr?
      then
        Some(Row(m["id"].n, Canvas(m["name"].s,
          Fields(m["customer_jobs"].s, m["pains"].s, m["gains"].s,
                 m["products_services"].s, m["gain_creators"].s, m["pain_relievers"].s),
          m["created_at"].s, m["updated_at"].s)))
      else None
  }

  /** The exported dict loses nothing: the row can be read back from it. */
  lemma RowJsonRoundTrip(id: int, c: Canvas)
    ensures RowOfJson(RowJson(id, c)) == Some(Row(id, c))
  {
  }

  /** `export_json(canvas_id)`; `dumps` stands for `json.dumps(data,
      indent=2)` of the row's dict. */
  function ExportJson(s: Store, id: int, dumps: Json -> string): (r: string)
    ensures id !in s.rows ==> r == NotFoundJson
    ensures id in s.rows ==> r == dumps(RowJson(id, s.rows[id]))
  {
    match GetCanvasById(s, id)
    case None => NotFoundJson
    case Some(c) => dumps(RowJson(id, c))
  }
}

=== FILE: filename.dfy ===
/** The download file name derived from a canvas name
    (`_sanitize_filename` in strategy_planner/app.py). */
module Filename {
  import opened Strings

  /** Longest file-name stem the application produces. */
  const MaxLength: nat := 60

  /** Stem used when the canvas name is blank. */
  const Fallback: string := "untitled"

  /** The character class `[A-Za-z0-9._-]`. */
  predicate Allowed(c: char) {
    ('A' <= c <= 'Z') || ('a' <= c <= 'z') || ('0' <= c <= '9') || c == '.' || c == '_' || c == '-'
  }

  predicate AllAllowed(s: string) {
    forall i :: 0 <= i < |s| ==> Allowed(s[i])
  }

  predicate NoneAllowed(s: string) {
    forall i :: 0 <= i < |s| ==> !Allowed(s[i])
  }

  /** Length of the run of disallowed characters at the front of `s`. */
  function RunLength(s: string): (n: nat)
    ensures n <= |s|
    ensures forall i :: 0 <= i < n ==> !Allowed(s[i])
    ensures n < |s| ==> Allowed(s[n])
  {
    if s != [] && !Allowed(s[0]) then 1 + RunLength(s[1..]) else 0
  }

  /** `re.sub(r"[^A-Za-z0-9._-]+", "_", s)`: every maximal run of characters
      outside the class becomes one underscore. */
  function Collapse(s: string): (r: string)
    ensures |r| <= |s|
    ensures s != [] ==> r != []
    decreases |s|
  {
    if s == [] then []
    else if Allowed(s[0]) then [s[0]] + Collapse(s[1..])
    else "_" + Collapse(s[RunLength(s)..])
  }

  /** `_sanitize_filename(name)`: strip, fall back to "untitled" when
      nothing is left, collapse disallowed runs, keep the first 60
      characters. */
  function Sanitize(name: string): (r: string)
    ensures 0 < |r| <= MaxLength
    ensures AllAllowed(r)
    ensures IsBlank(name) ==> r == Fallback
    ensures !IsBlank(name) ==> r == Take(Collapse(Strip(name)), MaxLength)
  {
    var stripped := Strip(name);
    FallbackIsStem();
    Stem(if stripped == [] then Fallback else stripped)
  }

  /** "untitled" is a valid stem of its own. */
  lemma FallbackIsStem()
    ensures AllAllowed(Fallback) && |Fallback| <= MaxLength
  {
  }

  /** The collapsed stem, cut to 60 characters. */
  function Stem(base: string): (r: string)
    requires base != []
    ensures 0 < |r| <= MaxLength
    ensures AllAllowed(r)
    ensures AllAllowed(base) && |base| <= MaxLength ==> r == base
    ensures r == Take(Collapse(base), MaxLength)
  {
    CollapseOnlyAllowed(base);
    assert AllAllowed(base) ==> Collapse(base) == base by {
      if AllAllowed(base) {
        CollapseAllowed(base);
      }
    }
    Take(Collapse(base), MaxLength)
  }

  /** Only allowed characters survive `Collapse`. */
  lemma {:induction false} CollapseOnlyAllowed(s: string)
    ensures AllAllowed(Collapse(s))
    decreases |s|
  {
    if s != [] {
      if Allowed(s[0]) {
        CollapseOnlyAllowed(s[1..]);
      } else {
        CollapseOnlyAllowed(s[RunLength(s)..]);
      }
    }
  }

  /** A string made only of allowed characters passes through `Collapse`
      unchanged. */
  lemma {:induction false} CollapseAllowed(s: string)
    requires AllAllowed(s)
    ensures Collapse(s) == s
    decreases |s|
  {
    if s != [] {
      CollapseAllowed(s[1..]);
      assert [s[0]] + s[1..] == s;
    }
  }

  /** A maximal run `d` of disallowed characters after an allowed prefix `a`
      becomes exactly one underscore, and the rest is collapsed on its own. */
  lemma {:induction false} CollapseRun(a: string, d: string, rest: string)
    requires AllAllowed(a)
    requires d != [] && NoneAllowed(d)
    requires rest == [] || Allowed(rest[0])
    ensures Collapse(a + d + rest) == a + "_" + Collapse(rest)
    decreases |a|
  {
    if a == [] {
      assert a + d + rest == d + rest;
      CollapseRunHead(d, rest);
    } else {
      var c := Collapse(rest);
      CollapseRun(a[1..], d, rest);
      ConcatAssoc(a[1..], d, rest);
      ConcatAssoc(a[1..], "_", c);
      CollapseRunStep(a, d + rest, "_" + c);
      ConcatAssoc(a, d, rest);
      ConcatAssoc(a, "_", c);
    }
  }

  /** The inductive step of `CollapseRun`: an allowed first character is
      kept in front of whatever the rest collapses to. */
  lemma CollapseRunStep(a: string, tail: string, c: string)
    requires a != [] && Allowed(a[0])
    requires Collapse(a[1..] + tail) == a[1..] + c
    ensures Collapse(a + tail) == a + c
  {
    ConsSplit(a, tail);
    CollapseCons(a[0], a[1..] + tail);
    ConsSplit(a, c);
  }

  lemma ConcatAssoc(x: string, y: string, z: string)
    ensures x + y + z == x + (y + z)
  {
  }

  lemma ConsSplit(a: string, t: string)
    requires a != []
    ensures [a[0]] + (a[1..] + t) == a + t
  {
    assert a == [a[0]] + a[1..];
  }

  /** An allowed character is kept as it is. */
  lemma CollapseCons(c: char, t: string)
    requires Allowed(c)
    ensures Collapse([c] + t) == [c] + Collapse(t)
  {
    assert ([c] + t)[1..] == t;
  }

  /** A string that starts with a maximal disallowed run `d` collapses to one
      underscore followed by the collapsed rest. */
  lemma CollapseRunHead(d: string, rest: string)
    requires d != [] && NoneAllowed(d)
    requires rest == [] || Allowed(rest[0])
    ensures Collapse(d + rest) == "_" + Collapse(rest)
  {
    var s := d + rest;
    assert s[0] == d[0];
    RunLengthOfRun(d, rest);
    assert s[|d|..] == rest;
  }

  /** The run at the front of `d + rest` is exactly `d`. */
  lemma {:induction false} RunLengthOfRun(d: string, rest: string)
    requires NoneAllowed(d)
    requires rest == [] || Allowed(rest[0])
    ensures RunLength(d + rest) == |d|
    decreases |d|
  {
    if d != [] {
      assert (d + rest)[0] == d[0];
      assert (d + rest)[1..] == d[1..] + rest;
      RunLengthOfRun(d[1..], rest);
    } else {
      assert d + rest == rest;
    }
  }

  /** A name that is already a valid stem (no surrounding whitespace, only
      allowed characters, at most 60 of them) is returned as its stripped
      self. */
  lemma SanitizeValidName(name: string)
    requires Strip(name) != []
    requires AllAllowed(Strip(name)) && |Strip(name)| <= MaxLength
    ensures Sanitize(name) == Strip(name)
  {
    CollapseAllowed(Strip(name));
  }

  /** Sanitising twice gives the same stem as sanitising once. */
  lemma SanitizeIdempotent(name: string)
    ensures Sanitize(Sanitize(name)) == Sanitize(name)
  {
    var r := Sanitize(name);
    assert !IsSpace(r[0]) && !IsSpace(r[|r| - 1]);
    StripUnchanged(r);
    SanitizeValidName(r);
  }
}

=== FILE: pyjson.dfy ===
/** The parsed body of an HTTP response (`r.json()`) as an abstract JSON
    value, together with the handful of Python operations the dispatcher
    applies to it: `dict.get`, indexing with `[0]`, iteration and truth
    testing. Operations that raise in Python return a `Failure`. */
module PyJson {
  import opened Wrappers

  /** A JSON document as Python sees it after `json.loads`. Numbers are
      integers here; floating-point numbers are not modelled. */
  datatype Json =
    | JNull
    | JBool(b: bool)
    | JNum(n: int)
    | JStr(s: string)
    | JArr(items: seq<Json>)
    | JObj(fields: map<string, Json>)

  /** The exceptions the response handling can raise. */
  datatype PyError =
    | AttributeError   // `.get` on something that is not a dict
    | IndexError       // `[0]` on an empty list or string
    | KeyError         // `[0]` on a dict
    | TypeError        // `[0]` or iteration on a scalar, `"".join` of a non-string
    | DecodeError      // `r.json()` on a body that is not JSON

  /** Python truthiness: empty containers, empty strings, zero, `False`
      and `None` are false. */
  predicate Truthy(v: Json) {
    match v
    case JNull => false
    case JBool(b) => b
    case JNum(n) => n != 0
    case JStr(s) => s != []
    case JArr(items) => items != []
    case JObj(fields) => fields != map[]
  }

  /** `v.get(key, default)`. */
  function Get(v: Json, key: string, default: Json): (r: Result<Json, PyError>)
    ensures r.Failure? <==> !v.JObj?
    ensures r.Failure? ==> r.error == AttributeError
    ensures v.JObj? && key in v.fields ==> r == Success(v.fields[key])
    ensures v.JObj? && key !in v.fields ==> r == Success(default)
  {
    match v
    case JObj(fields) => Success(if key in fields then fields[key] else default)
    case _ => Failure(AttributeError)
  }

  /** `v[0]`: the first element of a list, the first character of a string
      (as a one-character string); a dict has no key `0` since JSON keys are
      strings. */
  function First(v: Json): (r: Result<Json, PyError>)
    ensures v.JArr? && v.items != [] ==> r == Success(v.items[0])
    ensures r.Success? ==> (v.JArr? && v.items != []) || (v.JStr? && v.s != [])
  {
    match v
    case JArr(items) => if items == [] then Failure(IndexError) else Success(items[0])
    case JStr(s) => if s == [] then Failure(IndexError) else Success(JStr(s[..1]))
    case JObj(_) => Failure(KeyError)
    case _ => Failure(TypeError)
  }
}

=== FILE: responses.dfy ===
/** What `run_agent` does with a provider's HTTP response
    (strategy_planner/agents.py): format a non-200 status as an error
    string, otherwise pull the assistant's text out of the provider's JSON
    envelope. The response itself is an input; sending the request is not
    modelled. */
module Responses {
  import opened Wrappers
  import opened Strings
  import opened PyJson
  import opened Backends

  /** The part of a `requests` response the dispatcher reads: the status
      code, the body as text (`r.text`) and the body parsed as JSON
      (`r.json()`, `None` when the body is not JSON). */
  datatype HttpResponse = HttpResponse(status: nat, text: string, body: Option<Json>)

  /** Most characters of the body an error reply quotes. */
  const ErrorBodyLimit: nat := 500

  function ErrorPrefix(tag: string): string {
    "[" + tag + " Error] "
  }

  /** `f"[{tag} Error] {r.status_code}: {r.text[:500]}"`. */
  function ErrorReply(tag: string, status: nat, text: string): (r: string)
    ensures |ErrorPrefix(tag)| <= |r| && r[..|ErrorPrefix(tag)|] == ErrorPrefix(tag)
    ensures exists digits :: (r == ErrorPrefix(tag) + digits + ": " + Take(text, ErrorBodyLimit)
                              && |digits| > 0 && (forall i :: 0 <= i < |digits| ==> IsDigit(digits[i]))
                              && (digits[0] == '0' ==> |digits| == 1)
                              && ParseNat(digits) == status)
  {
    NatToStringRoundTrip(status);
    var digits := NatToString(status);
    var r := ErrorPrefix(tag) + digits + ": " + Take(text, ErrorBodyLimit);
    assert r[..|ErrorPrefix(tag)|] == ErrorPrefix(tag);
    r
  }

  /** The quoted body is the first `min(500, |text|)` characters of the
      body, at the very end of the reply. */
  lemma ErrorReplyQuotesBodyPrefix(tag: string, status: nat, text: string)
    ensures var q := Take(text, ErrorBodyLimit);
      |q| == (if |text| < ErrorBodyLimit then |text| else ErrorBodyLimit)
      && q == text[..|q|]
      && ErrorReply(tag, status, text)[|ErrorReply(tag, status, text)| - |q|..] == q
  {
  }

  /** `data.get("choices", [{}])[0].get("message", {}).get("content", "")`
      (OpenAI and OpenRouter). */
  function ChatContent(data: Json): (r: Result<Json, PyError>)
    ensures !data.JObj? ==> r == Failure(AttributeError)
    ensures data.JObj? && "choices" !in data.fields ==> r == Success(JStr(""))
    ensures data.JObj? && "choices" in data.fields && data.fields["choices"] == JArr([]) ==> r == Failure(IndexError)
    ensures data.JObj? && "choices" in data.fields && data.fields["choices"].JArr? && data.fields["choices"].items != [] ==>
      var first := data.fields["choices"].items[0];
      && (!first.JObj? ==> r == Failure(AttributeError))
      && (first.JObj? && "message" !in first.fields ==> r == Success(JStr("")))
      && (first.JObj? && "message" in first.fields && !first.fields["message"].JObj? ==> r == Failure(AttributeError))
      && (first.JObj? && "message" in first.fields && first.fields["message"].JObj? ==>
            var m := first.fields["message"].fields;
            r == Success(if "content" in m then m["content"] else JStr("")))
  {
    var choices :- Get(data, "choices", JArr([JObj(map[])]));
    var first :- First(choices);
    var message :- Get(first, "message", JObj(map[]));
    Get(message, "content", JStr(""))
  }

  /** A well-formed chat completion yields the first choice's message
      content, whatever other keys the envelope, the choice and the message
      carry, and whatever choices follow. */
  lemma ChatContentOfFirstChoice(data: Json, first: Json, others: seq<Json>)
    requires data.JObj? && "choices" in data.fields && data.fields["choices"] == JArr([first] + others)
    requires first.JObj? && "message" in first.fields && first.fields["message"].JObj?
    requires "content" in first.fields["message"].fields
    ensures ChatContent(data) == Success(first.fields["message"].fields["content"])
  {
  }

  /** `msg = data.get("message", {}); msg.get("content", "")` (Ollama). */
  function OllamaContent(data: Json): (r: Result<Json, PyError>)
    ensures !data.JObj? ==> r == Failure(AttributeError)
    ensures data.JObj? && "message" !in data.fields ==> r == Success(JStr(""))
    ensures data.JObj? && "message" in data.fields && data.fields["message"].JObj? ==>
      var m := data.fields["message"].fields;
      r == Success(if "content" in m then m["content"] else JStr(""))
    ensures data.JObj? && "message" in data.fields && !data.fields["message"].JObj? ==> r == Failure(AttributeError)
  {
    var message :- Get(data, "message", JObj(map[]));
    Get(message, "content", JStr(""))
  }

  /** A content block with `"type": "text"`. */
  predicate IsTextBlock(p: Json) {
    p.JObj? && "type" in p.fields && p.fields["type"] == JStr("text")
  }

  /** `p.get("text", "") for p in parts if p.get("type") == "text"`,
      evaluated to a list: each element must be a dict. */
  function SelectTexts(parts: seq<Json>): (r: Result<seq<Json>, PyError>)
    ensures r.Failure? <==> exists i :: 0 <= i < |parts| && !parts[i].JObj?
    ensures r.Success? ==> |r.value| <= |parts|
    ensures |parts| == 1 && IsTextBlock(parts[0]) ==>
      r == Success([if "text" in parts[0].fields then parts[0].fields["text"] else JStr("")])
    ensures |parts| == 1 && parts[0].JObj? && !IsTextBlock(parts[0]) ==> r == Success([])
    decreases |parts|
  {
    if parts == [] then Success([])
    else if !parts[0].JObj? then Failure(AttributeError)
    else
      var rest := SelectTexts(parts[1..]);
      if rest.Failure? then
        var i :| 0 <= i < |parts[1..]| && !parts[1..][i].JObj?;
        assert !parts[i + 1].JObj?;
        rest
      else if IsTextBlock(parts[0]) then
        var t := Get(parts[0], "text", JStr("")).value;
        assert |parts| == 1 ==> parts[1..] == [] && [t] + rest.value == [t];
        Success([t] + rest.value)
      else
        rest
  }

  /** `"".join(values)`: every value must be a string. */
  function JoinStrings(values: seq<Json>): (r: Result<string, PyError>)
    ensures r.Failure? <==> exists i :: 0 <= i < |values| && !values[i].JStr?
    ensures r.Failure? ==> r.error == TypeError
    decreases |values|
  {
    if values == [] then Success("")
    else if !values[0].JStr? then Failure(TypeError)
    else
      var rest :- JoinStrings(values[1..]);
      Success(values[0].s + rest)
  }

  /** The joined text of a list of Anthropic content blocks. */
  function BlocksText(parts: seq<Json>): Result<string, PyError> {
    var texts :- SelectTexts(parts);
    JoinStrings(texts)
  }

  /** `"".join(p.get("text", "") for p in data.get("content", []) if
      p.get("type") == "text")` (Anthropic). A string or dict in place of
      the list yields strings, which have no `.get`, so only an empty one
      gets through. */
  function AnthropicContent(data: Json): (r: Result<Json, PyError>)
    ensures !data.JObj? ==> r == Failure(AttributeError)
    ensures data.JObj? && "content" !in data.fields ==> r == Success(JStr(""))
    ensures r.Success? ==> r.value.JStr?
    ensures data.JObj? && "content" in data.fields && data.fields["content"].JArr? ==>
      var b := BlocksText(data.fields["content"].items);
      r == if b.Success? then Success(JStr(b.value)) else Failure(b.error)
  {
    var parts :- Get(data, "content", JArr([]));
    match parts
    case JArr(items) =>
      var text :- BlocksText(items);
      Success(JStr(text))
    case JStr(s) => if s == [] then Success(JStr("")) else Failure(AttributeError)
    case JObj(m) => if m == map[] then Success(JStr("")) else Failure(AttributeError)
    case _ => Failure(TypeError)
  }

  /** A text block whose text is a string. */
  function TextBlock(t: string): Json {
    JObj(map["type" := JStr("text"), "text" := JStr(t)])
  }

  /** A single text block contributes its `text`, whatever other keys it
      carries: nothing when the key is missing, the string when it is one,
      and a TypeError from the join otherwise. */
  lemma BlocksTextOfTextBlock(p: Json)
    requires IsTextBlock(p)
    ensures "text" !in p.fields ==> BlocksText([p]) == Success("")
    ensures "text" in p.fields && p.fields["text"].JStr? ==> BlocksText([p]) == Success(p.fields["text"].s)
    ensures "text" in p.fields && !p.fields["text"].JStr? ==> BlocksText([p]) == Failure(TypeError)
  {
    var v := if "text" in p.fields then p.fields["text"] else JStr("");
    assert [p][1..] == [];
    assert SelectTexts([]) == Success([]);
    assert Get(p, "text", JStr("")) == Success(v);
    assert [v] + [] == [v];
    assert SelectTexts([p]) == Success([v]);
    assert [v][1..] == [];
    if v.JStr? {
      assert JoinStrings([v]) == Success(v.s + "");
      assert v.s + "" == v.s;
    }
  }

  /** `TextBlock(t)` contributes exactly `t`. */
  lemma TextBlockContributes(t: string)
    ensures BlocksText([TextBlock(t)]) == Success(t)
  {
    var p := TextBlock(t);
    assert p.fields["type"] == JStr("text") && p.fields["text"] == JStr(t);
    BlocksTextOfTextBlock(p);
  }

  /** A block that is a dict of any other type contributes nothing. */
  lemma BlocksTextSkipsOtherBlocks(p: Json, rest: seq<Json>)
    requires p.JObj? && !IsTextBlock(p)
    ensures BlocksText([p] + rest) == BlocksText(rest)
  {
    assert ([p] + rest)[1..] == rest;
  }

  /** The text of two runs of blocks is the text of the first followed by
      the text of the second: blocks contribute in order. */
  lemma {:induction false} BlocksTextAppend(a: seq<Json>, b: seq<Json>)
    requires BlocksText(a).Success? && BlocksText(b).Success?
    ensures BlocksText(a + b) == Success(BlocksText(a).value + BlocksText(b).value)
  {
    SelectTextsAppend(a, b);
    JoinStringsAppend(SelectTexts(a).value, SelectTexts(b).value);
  }

  lemma {:induction false} SelectTextsAppend(a: seq<Json>, b: seq<Json>)
    requires SelectTexts(a).Success? && SelectTexts(b).Success?
    ensures SelectTexts(a + b) == Success(SelectTexts(a).value + SelectTexts(b).value)
    decreases |a|
  {
    if a == [] {
      assert a + b == b;
      assert SelectTexts(a).value == [];
      assert [] + SelectTexts(b).value == SelectTexts(b).value;
    } else {
      assert (a + b)[0] == a[0];
      assert (a + b)[1..] == a[1..] + b;
      SelectTextsAppend(a[1..], b);
      var x := SelectTexts(a[1..]).value;
      var y := SelectTexts(b).value;
      if IsTextBlock(a[0]) {
        var t := Get(a[0], "text", JStr("")).value;
        assert [t] + (x + y) == ([t] + x) + y;
      }
    }
  }

  lemma {:induction false} JoinStringsAppend(a: seq<Json>, b: seq<Json>)
    requires JoinStrings(a).Success? && JoinStrings(b).Success?
    ensures JoinStrings(a + b) == Success(JoinStrings(a).value + JoinStrings(b).value)
    decreases |a|
  {
    if a == [] {
      assert a + b == b;
      assert JoinStrings(a).value == "";
      assert "" + JoinStrings(b).value == JoinStrings(b).value;
    } else {
      assert (a + b)[0] == a[0];
      assert (a + b)[1..] == a[1..] + b;
      JoinStringsAppend(a[1..], b);
      var x := JoinStrings(a[1..]).value;
      var y := JoinStrings(b).value;
      assert a[0].s + (x + y) == (a[0].s + x) + y;
    }
  }

  /** A mixed response: text, a tool call, text again gives the two texts
      concatenated. */
  lemma AnthropicExample()
    ensures AnthropicContent(JObj(map["content" := JArr([TextBlock("Hello"),
                                                         JObj(map["type" := JStr("tool_use")]),
                                                         TextBlock(", world")])]))
         == Success(JStr("Hello, world"))
  {
    var tool := JObj(map["type" := JStr("tool_use")]);
    var items := [TextBlock("Hello"), tool, TextBlock(", world")];
    assert tool.fields["type"] != JStr("text");
    TextBlockContributes("Hello");
    TextBlockContributes(", world");
    BlocksTextSkipsOtherBlocks(tool, [TextBlock(", world")]);
    BlocksTextAppend([TextBlock("Hello")], [tool, TextBlock(", world")]);
    assert [TextBlock("Hello")] + [tool, TextBlock(", world")] == items;
    assert BlocksText(items) == Success("Hello" + ", world");
    assert "Hello" + ", world" == "Hello, world";
  }

  /** The text a successful response carries for the given provider. */
  function ExtractContent(p: Provider, data: Json): Result<Json, PyError> {
    match p
    case Anthropic => AnthropicContent(data)
    case Ollama => OllamaContent(data)
    case _ => ChatContent(data)
  }

  /** The tail of each provider branch of `run_agent`, after the request. */
  function Complete(p: Provider, response: HttpResponse): (r: Result<Json, PyError>)
    ensures response.status != 200 ==> r == Success(JStr(ErrorReply(Label(p), response.status, response.text)))
    ensures response.status == 200 && response.body.None? ==> r == Failure(DecodeError)
    ensures response.status == 200 && response.body.Some? ==> r == ExtractContent(p, response.body.value)
  {
    if response.status != 200 then Success(JStr(ErrorReply(Label(p), response.status, response.text)))
    else if response.body.None? then Failure(DecodeError)
    else ExtractContent(p, response.body.value)
  }
}

=== FILE: secrets.dfy ===
/** `_get_secret` in strategy_planner/agents.py: look a secret up under
    several names, trying the Streamlit secrets store before the process
    environment for each name. */
module Secrets {
  import opened Wrappers

  /** The Streamlit secrets store, or `Unavailable` when Streamlit is not
      importable or reading it raises (both make the code skip it). */
  datatype SecretSource = Unavailable | Available(entries: map<string, string>)

  /** A non-empty value stored under `key` in the secrets store. */
  function FromStore(store: SecretSource, key: string): (r: Option<string>)
    ensures r.Some? ==> r.value != []
  {
    match store
    case Available(entries) =>
      if key in entries && entries[key] != [] then Some(entries[key]) else None
    case Unavailable => None
  }

  /** A non-empty value of the environment variable `key`. */
  function FromEnv(env: map<string, string>, key: string): (r: Option<string>)
    ensures r.Some? ==> r.value != []
  {
    if key in env && env[key] != [] then Some(env[key]) else None
  }

  /** `key` has a usable value in either place. */
  predicate Found(store: SecretSource, env: map<string, string>, key: string) {
    FromStore(store, key).Some? || FromEnv(env, key).Some?
  }

  /** The value for a found key: the store's, and the environment's only
      when the store has none. */
  function ValueOf(store: SecretSource, env: map<string, string>, key: string): string
    requires Found(store, env, key)
  {
    if FromStore(store, key).Some? then FromStore(store, key).value else FromEnv(env, key).value
  }

  /** `keys[i]` is the first key with a usable value. */
  predicate FirstFound(store: SecretSource, env: map<string, string>, keys: seq<string>, i: int) {
    0 <= i < |keys| && Found(store, env, keys[i])
    && forall j :: 0 <= j < i ==> !Found(store, env, keys[j])
  }

  /** `_get_secret(*keys)`. */
  function GetSecret(store: SecretSource, env: map<string, string>, keys: seq<string>): (r: Option<string>)
    ensures r.None? <==> forall i :: 0 <= i < |keys| ==> !Found(store, env, keys[i])
    ensures r.Some? ==> exists i :: FirstFound(store, env, keys, i) && r.value == ValueOf(store, env, keys[i])
    ensures r.Some? ==> r.value != []
    decreases |keys|
  {
    if keys == [] then None
    else if Found(store, env, keys[0]) then
      assert FirstFound(store, env, keys, 0);
      if FromStore(store, keys[0]).Some? then FromStore(store, keys[0]) else FromEnv(env, keys[0])
    else
      var r := GetSecret(store, env, keys[1..]);
      assert forall i :: 1 <= i < |keys| ==> keys[i] == keys[1..][i - 1];
      if r.Some? then
        var i :| FirstFound(store, env, keys[1..], i) && r.value == ValueOf(store, env, keys[1..][i]);
        assert FirstFound(store, env, keys, i + 1);
        r
      else
        r
  }

  /** A value in the secrets store shadows the environment, whatever the
      environment holds. */
  lemma StoreShadowsEnv(store: SecretSource, env: map<string, string>, key: string)
    requires store.Available? && key in store.entries && store.entries[key] != []
    ensures GetSecret(store, env, [key]) == Some(store.entries[key])
  {
  }

  /** An empty value is skipped, exactly as if the key were absent: a key
      whose value is empty wherever it is set (in the secrets store, in the
      environment, or both) can be dropped from both sources without
      changing any lookup. */
  lemma EmptyValuesSkipped(store: map<string, string>, env: map<string, string>, key: string, keys: seq<string>)
    requires key in store ==> store[key] == []
    requires key in env ==> env[key] == []
    ensures GetSecret(Available(store), env, keys)
         == GetSecret(Available(store - {key}), env - {key}, keys)
  {
    SameLookupOffKey(Available(store), Available(store - {key}), env, env - {key}, key, keys);
  }

  /** Two pairs of sources that differ only at `key`, which has no usable
      value in either, give the same lookup for any list of names. */
  lemma {:induction false} SameLookupOffKey(s1: SecretSource, s2: SecretSource, e1: map<string, string>,
                                            e2: map<string, string>, key: string, keys: seq<string>)
    requires !Found(s1, e1, key) && !Found(s2, e2, key)
    requires forall k :: k != key ==> FromStore(s1, k) == FromStore(s2, k) && FromEnv(e1, k) == FromEnv(e2, k)
    ensures GetSecret(s1, e1, keys) == GetSecret(s2, e2, keys)
    decreases |keys|
  {
    if keys != [] {
      SameLookupOffKey(s1, s2, e1, e2, key, keys[1..]);
      var k := keys[0];
      if k != key {
        assert FromStore(s1, k) == FromStore(s2, k) && FromEnv(e1, k) == FromEnv(e2, k);
      }
    }
  }
}

=== FILE: storage.dfy ===
/** The `canvases` table of strategy_planner/storage.py as an abstract map
    from id to row, with the table's declared constraints: an
    AUTOINCREMENT primary key and a UNIQUE, NOT NULL name. Connections,
    commits and the clock are not modelled; the save time `now` is a
    parameter. */
module Storage {
  import opened Wrappers
  import opened Strings

  /** The six free-text fields of a Value Proposition Canvas. */
  datatype Fields = Fields(
    customerJobs: string,
    pains: string,
    gains: string,
    productsServices: string,
    gainCreators: string,
    painRelievers: string)

  /** A row of `canvases`, without its id. Timestamps are ISO-8601 strings. */
  datatype Canvas = Canvas(name: string, fields: Fields, createdAt: string, updatedAt: string)

  /** A row together with its id, as the lookups return it. */
  datatype Row = Row(id: int, canvas: Canvas)

  /** The table: rows by id, and the id AUTOINCREMENT hands out next (one
      more than the largest id ever issued, so ids are never reused). */
  datatype Store = Store(rows: map<int, Canvas>, nextId: int)

  /** The table's constraints: ids are positive and below the counter, and
      no two rows share a name. */
  predicate Valid(s: Store) {
    && s.nextId >= 1
    && IdsIssued(s)
    && (forall a, b :: a in s.rows && b in s.rows && s.rows[a].name == s.rows[b].name ==> a == b)
  }

  /** Every id in the table was issued by the counter: it lies in
      `[1, nextId)`. */
  predicate IdsIssued(s: Store) {
    forall id :: id in s.rows ==> 1 <= id < s.nextId
  }

  /** A freshly created database. */
  const Empty: Store := Store(map[], 1)

  /** The freshly created table meets the constraints, so every table that
      `SaveCanvas` and `DeleteCanvas` reach from it does too. */
  lemma EmptyValid()
    ensures Valid(Empty) && IdsIssued(Empty)
  {
  }

  /** The error a duplicate name raises (`sqlite3.IntegrityError`). */
  datatype StoreError = NameTaken

  /** The dict `save_canvas` returns. */
  datatype Saved = Saved(id: int, name: string, updatedAt: string)

  /** Some row other than `except` already has `name`. */
  predicate NameUsedByOther(s: Store, name: string, except: Option<int>) {
    exists k :: k in s.rows && s.rows[k].name == name && except != Some(k)
  }

  /** `save_canvas`: insert when no id is given, otherwise update the row
      with that id in place. Returns the table afterwards and the reply or
      the error; a failed statement leaves the table as it was. */
  function SaveCanvas(s: Store, id: Option<int>, name: string, fields: Fields, now: string)
    : (out: (Store, Result<Saved, StoreError>))
    ensures Valid(s) ==> Valid(out.0)
    ensures out.1.Failure? ==> out.0 == s
    ensures out.1.Success? ==> out.1.value.name == name && out.1.value.updatedAt == now
    // insert
    ensures id.None? ==> (out.1.Failure? <==> NameUsedByOther(s, name, None))
    ensures id.None? && out.1.Success? ==>
      && out.1.value.id == s.nextId
      && out.0.rows == s.rows[s.nextId := Canvas(name, fields, now, now)]
      && out.0.nextId > s.nextId
    // update
    ensures id.Some? && out.1.Success? ==> out.1.value.id == id.value && out.0.nextId == s.nextId
    ensures id.Some? && id.value !in s.rows ==> out.0 == s && out.1.Success?
    ensures id.Some? && id.value in s.rows ==>
      && (out.1.Failure? <==> NameUsedByOther(s, name, id))
      && (out.1.Success? ==>
            out.0.rows == s.rows[id.value := Canvas(name, fields, s.rows[id.value].createdAt, now)])
  {
    match id
    case None =>
      if NameUsedByOther(s, name, None) then (s, Failure(NameTaken))
      else
        var newId := s.nextId;
        (Store(s.rows[newId := Canvas(name, fields, now, now)], newId + 1), Success(Saved(newId, name, now)))
    case Some(target) =>
      if target !in s.rows then (s, Success(Saved(target, name, now)))
      else if NameUsedByOther(s, name, id) then (s, Failure(NameTaken))
      else
        var row := Canvas(name, fields, s.rows[target].createdAt, now);
        (Store(s.rows[target := row], s.nextId), Success(Saved(target, name, now)))
  }

  /** `delete_canvas`: remove the row with that id, if any. */
  function DeleteCanvas(s: Store, id: int): (r: Store)
    ensures Valid(s) ==> Valid(r)
    ensures id !in s.rows ==> r == s
    ensures r.rows.Keys == s.rows.Keys - {id}
    ensures forall k :: k in r.rows ==> r.rows[k] == s.rows[k]
    ensures r.nextId == s.nextId
  {
    if id in s.rows then Store(s.rows - {id}, s.nextId) else s
  }

  /** `get_canvas_by_id`: the row, or `None` when there is none. */
  function GetCanvasById(s: Store, id: int): (r: Option<Canvas>)
    ensures r.None? <==> id !in s.rows
    ensures r.Some? ==> r.value == s.rows[id]
  {
    if id in s.rows then Some(s.rows[id]) else None
  }

  /** `get_canvas_by_name`: scans the table in id order for the row with
      that name; `None` when there is none. In a valid table the row is the
      only one with that name. */
  method GetCanvasByName(s: Store, name: string) returns (r: Option<Row>)
    requires IdsIssued(s)
    ensures r.None? <==> forall k :: k in s.rows ==> s.rows[k].name != name
    ensures r.Some? ==> r.value.id in s.rows && s.rows[r.value.id] == r.value.canvas && r.value.canvas.name == name
    ensures r.Some? && Valid(s) ==> forall k :: k in s.rows && s.rows[k].name == name ==> k == r.value.id
  {
    var id := 1;
    while id < s.nextId
      invariant forall k :: k in s.rows && k < id ==> s.rows[k].name != name
    {
      if id in s.rows && s.rows[id].name == name {
        return Some(Row(id, s.rows[id]));
      }
      id := id + 1;
    }
    return None;
  }

  /** A row `list_canvases` returns. */
  datatype Summary = Summary(id: int, name: string, updatedAt: string)

  function SummaryOf(id: int, c: Canvas): Summary {
    Summary(id, c.name, c.updatedAt)
  }

  /** `ORDER BY datetime(updated_at) DESC, name ASC`: later updates first,
      ties broken by name. */
  predicate ListedBefore(a: Summary, b: Summary) {
    (a.updatedAt != b.updatedAt && StrLe(b.updatedAt, a.updatedAt))
    || (a.updatedAt == b.updatedAt && StrLe(a.name, b.name))
  }

  lemma ListedBeforeTotal(a: Summary, b: Summary)
    ensures ListedBefore(a, b) || ListedBefore(b, a)
  {
    StrLeTotal(a.updatedAt, b.updatedAt);
    StrLeTotal(a.name, b.name);
  }

  lemma ListedBeforeTransitive(a: Summary, b: Summary, c: Summary)
    requires ListedBefore(a, b) && ListedBefore(b, c)
    ensures ListedBefore(a, c)
  {
    if a.updatedAt == b.updatedAt && b.updatedAt == c.updatedAt {
      StrLeTransitive(a.name, b.name, c.name);
    } else if a.updatedAt == b.updatedAt || b.updatedAt == c.updatedAt {
    } else {
      StrLeTransitive(c.updatedAt, b.updatedAt, a.updatedAt);
      if a.updatedAt == c.updatedAt {
        StrLeAntisymmetric(a.updatedAt, b.updatedAt);
      }
    }
  }

  /** Two rows with different names never tie. */
  lemma ListedBeforeAntisymmetric(a: Summary, b: Summary)
    requires ListedBefore(a, b) && ListedBefore(b, a)
    ensures a.updatedAt == b.updatedAt && a.name == b.name
  {
    if a.updatedAt != b.updatedAt {
      StrLeAntisymmetric(a.updatedAt, b.updatedAt);
    } else {
      StrLeAntisymmetric(a.name, b.name);
    }
  }

  predicate Sorted(r: seq<Summary>) {
    forall i, j :: 0 <= i < j < |r| ==> ListedBefore(r[i], r[j])
  }

  function IdsOf(r: seq<Summary>): set<int> {
    set i | 0 <= i < |r| :: r[i].id
  }

  /** Inserts `x` into a sorted listing at its place. */
  function Insert(r: seq<Summary>, x: Summary): (r': seq<Summary>)
    requires Sorted(r)
    ensures Sorted(r')
    ensures |r'| == |r| + 1
    ensures forall y :: y in r' <==> y in r || y == x
    ensures multiset(r') == multiset(r) + multiset{x}
    decreases |r|
  {
    if r == [] then [x]
    else if ListedBefore(x, r[0]) then
      assert forall j :: 0 <= j < |r| ==> ListedBefore(x, r[j]) by {
        forall j | 0 <= j < |r|
          ensures ListedBefore(x, r[j])
        {
          if j > 0 {
            ListedBeforeTransitive(x, r[0], r[j]);
          }
        }
      }
      [x] + r
    else
      ListedBeforeTotal(x, r[0]);
      var tail := Insert(r[1..], x);
      assert forall y :: y in tail ==> ListedBefore(r[0], y) by {
        forall y | y in tail
          ensures ListedBefore(r[0], y)
        {
          if y != x {
            var j :| 0 <= j < |r[1..]| && r[1..][j] == y;
            assert r[j + 1] == y;
          }
        }
      }
      ConsCount(r, tail, x);
      [r[0]] + tail
  }

  /** Putting the head back in front of the tail's insertion result counts
      every entry of `r` once and `x` once more. */
  lemma ConsCount(r: seq<Summary>, tail: seq<Summary>, x: Summary)
    requires r != [] && multiset(tail) == multiset(r[1..]) + multiset{x}
    ensures multiset([r[0]] + tail) == multiset(r) + multiset{x}
  {
    assert r == [r[0]] + r[1..];
  }

  lemma IdsOfMembers(r: seq<Summary>, r': seq<Summary>, x: Summary)
    requires forall y :: y in r' <==> y in r || y == x
    ensures IdsOf(r') == IdsOf(r) + {x.id}
  {
    forall id | id in IdsOf(r') ensures id in IdsOf(r) + {x.id} {
      var i :| 0 <= i < |r'| && r'[i].id == id;
      assert r'[i] in r';
      if r'[i] != x {
        var j :| 0 <= j < |r| && r[j] == r'[i];
      }
    }
    forall id | id in IdsOf(r) + {x.id} ensures id in IdsOf(r') {
      if id in IdsOf(r) {
        var j :| 0 <= j < |r| && r[j].id == id;
        assert r[j] in r;
        var i :| 0 <= i < |r'| && r'[i] == r[j];
      } else {
        assert x in r';
        var i :| 0 <= i < |r'| && r'[i] == x;
      }
    }
  }

  /** Every entry of `r` is the summary of the row it names. */
  predicate Describes(r: seq<Summary>, rows: map<int, Canvas>) {
    forall i :: 0 <= i < |r| ==> r[i].id in rows && r[i] == SummaryOf(r[i].id, rows[r[i].id])
  }

  /** Inserting the summary of a row keeps a listing faithful to the rows. */
  lemma InsertDescribes(r: seq<Summary>, r': seq<Summary>, x: Summary, rows: map<int, Canvas>)
    requires Describes(r, rows)
    requires x.id in rows && x == SummaryOf(x.id, rows[x.id])
    requires forall y :: y in r' <==> y in r || y == x
    ensures Describes(r', rows)
  {
    forall i | 0 <= i < |r'|
      ensures r'[i].id in rows && r'[i] == SummaryOf(r'[i].id, rows[r'[i].id])
    {
      assert r'[i] in r';
      if r'[i] != x {
        var j :| 0 <= j < |r| && r[j] == r'[i];
      }
    }
  }

  /** The ids of `rows` below `bound`. */
  function KeysBelow(rows: map<int, Canvas>, bound: int): set<int> {
    set k | k in rows && k < bound
  }

  lemma KeysBelowNext(rows: map<int, Canvas>, bound: int)
    ensures KeysBelow(rows, bound + 1) == KeysBelow(rows, bound) + (if bound in rows then {bound} else {})
  {
  }

  /** One step of `ListCanvases`: adding the summary of row `id` to a
      listing of the rows below `id` lists the rows below `id + 1`. */
  lemma ListStep(rows: map<int, Canvas>, id: int, r: seq<Summary>, r': seq<Summary>, x: Summary)
    requires IdsOf(r) == KeysBelow(rows, id) && |r| == |KeysBelow(rows, id)| && Describes(r, rows)
    requires id in rows && x == SummaryOf(id, rows[id])
    requires |r'| == |r| + 1 && forall y :: y in r' <==> y in r || y == x
    ensures IdsOf(r') == KeysBelow(rows, id + 1) && |r'| == |KeysBelow(rows, id + 1)| && Describes(r', rows)
  {
    KeysBelowNext(rows, id);
    assert id !in KeysBelow(rows, id);
    IdsOfMembers(r, r', x);
    InsertDescribes(r, r', x, rows);
  }

  /** `list_canvases`: one summary per row, most recently updated first,
      then by name. */
  method ListCanvases(s: Store) returns (r: seq<Summary>)
    requires IdsIssued(s)
    ensures |r| == |s.rows|
    ensures IdsOf(r) == s.rows.Keys
    ensures forall i :: 0 <= i < |r| ==> r[i].id in s.rows && r[i] == SummaryOf(r[i].id, s.rows[r[i].id])
    ensures Sorted(r)
  {
    r := [];
    var id := 1;
    while id < s.nextId
      invariant Sorted(r)
      invariant IdsOf(r) == KeysBelow(s.rows, id)
      invariant |r| == |KeysBelow(s.rows, id)|
      invariant Describes(r, s.rows)
    {
      KeysBelowNext(s.rows, id);
      if id in s.rows {
        var x := SummaryOf(id, s.rows[id]);
        var r' := Insert(r, x);
        ListStep(s.rows, id, r, r', x);
        r := r';
      }
      id := id + 1;
    }
    KeysBelowAll(s, id);
  }

  /** Every issued id lies below `nextId`. */
  lemma KeysBelowAll(s: Store, bound: int)
    requires IdsIssued(s) && s.nextId <= bound
    ensures KeysBelow(s.rows, bound) == s.rows.Keys
  {
  }

  /** No two entries of a listing share a name. */
  predicate NamesDistinct(r: seq<Summary>) {
    forall i, j :: 0 <= i < j < |r| ==> r[i].name != r[j].name
  }

  /** The order leaves no choice: two sorted listings of the same rows,
      names unique, are the same list. */
  lemma {:induction false} ListingUnique(a: seq<Summary>, b: seq<Summary>)
    requires Sorted(a) && Sorted(b) && NamesDistinct(a) && NamesDistinct(b)
    requires |a| == |b| && forall x :: x in a <==> x in b
    ensures a == b
    decreases |a|
  {
    if a != [] {
      SortedSameHead(a, b);
      SameTails(a, b);
      ListingUnique(a[1..], b[1..]);
      assert a == [a[0]] + a[1..];
      assert b == [b[0]] + b[1..];
    }
  }

  /** Two sorted listings of the same entries, names unique, start with
      the same entry. */
  lemma SortedSameHead(a: seq<Summary>, b: seq<Summary>)
    requires a != [] && b != []
    requires Sorted(a) && Sorted(b) && NamesDistinct(a)
    requires forall x :: x in a <==> x in b
    ensures a[0] == b[0]
  {
    assert a[0] in a;
    assert b[0] in b;
    var k :| 0 <= k < |a| && a[k] == b[0];
    var l :| 0 <= l < |b| && b[l] == a[0];
    if k > 0 {
      assert ListedBefore(a[0], a[k]);
    } else {
      StrLeReflexive(a[0].name);
    }
    if l > 0 {
      assert ListedBefore(b[0], b[l]);
    } else {
      StrLeReflexive(b[0].name);
    }
    ListedBeforeAntisymmetric(a[0], b[0]);
  }

  /** Removing a shared first entry from two listings with the same
      entries, names unique, leaves the same entries. */
  lemma SameTails(a: seq<Summary>, b: seq<Summary>)
    requires a != [] && b != [] && a[0] == b[0]
    requires NamesDistinct(a) && NamesDistinct(b)
    requires forall x :: x in a <==> x in b
    ensures forall x :: x in a[1..] <==> x in b[1..]
  {
    forall x
      ensures x in a[1..] <==> x in b[1..]
    {
      if x in a[1..] {
        var i :| 0 <= i < |a[1..]| && a[1..][i] == x;
        assert a[i + 1] == x && x != a[0];
        assert x in b;
        var j :| 0 <= j < |b| && b[j] == x;
        assert b[1..][j - 1] == x;
      }
      if x in b[1..] {
        var j :| 0 <= j < |b[1..]| && b[1..][j] == x;
        assert b[j + 1] == x && x != b[0];
        assert x in a;
        var i :| 0 <= i < |a| && a[i] == x;
        assert a[1..][i - 1] == x;
      }
    }
  }

  /** Saving a new canvas and reading it back by the returned id gives the
      name, the six fields and the save time. */
  lemma SaveThenGet(s: Store, name: string, fields: Fields, now: string)
    requires Valid(s)
    requires SaveCanvas(s, None, name, fields, now).1.Success?
    ensures var (s', saved) := SaveCanvas(s, None, name, fields, now);
      && saved.value.id !in s.rows
      && GetCanvasById(s', saved.value.id) == Some(Canvas(name, fields, now, now))
      && |s'.rows| == |s.rows| + 1
  {
  }

  /** Updating an existing canvas keeps the number of rows, keeps its
      creation time and leaves every other row alone. */
  lemma UpdateInPlace(s: Store, id: int, name: string, fields: Fields, now: string)
    requires Valid(s) && id in s.rows
    requires SaveCanvas(s, Some(id), name, fields, now).1.Success?
    ensures var s' := SaveCanvas(s, Some(id), name, fields, now).0;
      && |s'.rows| == |s.rows|
      && s'.rows.Keys == s.rows.Keys
      && s'.rows[id].createdAt == s.rows[id].createdAt
      && s'.rows[id].fields == fields
      && forall k :: k in s.rows && k != id ==> s'.rows[k] == s.rows[k]
  {
    var s' := SaveCanvas(s, Some(id), name, fields, now).0;
    assert s'.rows.Keys == s.rows.Keys;
  }

  /** Saving under a name another row already has fails and changes
      nothing, whether inserting or updating. */
  lemma DuplicateNameRejected(s: Store, id: Option<int>, other: int, fields: Fields, now: string)
    requires other in s.rows && id != Some(other)
    requires id.None? || id.value in s.rows
    ensures SaveCanvas(s, id, s.rows[other].name, fields, now) == (s, Failure(NameTaken))
  {
    assert NameUsedByOther(s, s.rows[other].name, id);
  }

  /** Deleting twice is the same as deleting once, and the row is gone. */
  lemma DeleteIdempotent(s: Store, id: int)
    ensures DeleteCanvas(DeleteCanvas(s, id), id) == DeleteCanvas(s, id)
    ensures GetCanvasById(DeleteCanvas(s, id), id).None?
  {
  }
}

=== FILE: strings.dfy ===
/** The small part of Python's `str` that the application relies on:
    `strip`, `lower`, the `in` substring test, slicing a prefix, `"\n".join`,
    code-point ordering of strings, and the decimal rendering of an `int`.
    Whitespace and case are restricted to ASCII. */
module Strings {

  /** `c.isspace()` for the ASCII range: tab, line feed, vertical tab, form
      feed, carriage return, the four information separators and space. */
  predicate IsSpace(c: char) {
    ('\t' <= c <= '\r') || ('\U{1C}' <= c <= '\U{1F}') || c == ' '
  }

  /** Number of whitespace characters `s.lstrip()` removes. */
  function LeadingSpaces(s: string): (k: nat)
    ensures k <= |s|
    ensures forall i :: 0 <= i < k ==> IsSpace(s[i])
    ensures k == |s| || !IsSpace(s[k])
  {
    if |s| > 0 && IsSpace(s[0]) then 1 + LeadingSpaces(s[1..]) else 0
  }

  /** Index where the whitespace `s.rstrip()` removes begins. */
  function TrailingStart(s: string): (j: nat)
    ensures j <= |s|
    ensures forall i :: j <= i < |s| ==> IsSpace(s[i])
    ensures j == 0 || !IsSpace(s[j - 1])
  {
    if |s| > 0 && IsSpace(s[|s| - 1]) then TrailingStart(s[..|s| - 1]) else |s|
  }

  /** Everything before `i` and from `j` on is whitespace. */
  predicate SpaceOutside(s: string, i: int, j: int)
    requires 0 <= i <= j <= |s|
  {
    (forall k :: 0 <= k < i ==> IsSpace(s[k])) && (forall k :: j <= k < |s| ==> IsSpace(s[k]))
  }

  /** `s.strip()`: the slice between the leading and the trailing
      whitespace. */
  function Strip(s: string): (r: string)
    ensures exists i, j :: 0 <= i <= j <= |s| && r == s[i..j] && SpaceOutside(s, i, j)
    ensures r == [] || (!IsSpace(r[0]) && !IsSpace(r[|r| - 1]))
    ensures r == [] <==> forall k :: 0 <= k < |s| ==> IsSpace(s[k])
  {
    var i := LeadingSpaces(s);
    if i == |s| then
      assert SpaceOutside(s, |s|, |s|);
      []
    else
      var j := TrailingStart(s);
      assert SpaceOutside(s, i, j);
      s[i..j]
  }

  /** A string with a non-whitespace character strips to the slice between
      its first and its last such character. */
  lemma StripNonBlank(s: string)
    requires exists i :: 0 <= i < |s| && !IsSpace(s[i])
    ensures Strip(s) != []
    ensures exists b, e :: 0 <= b < e <= |s| && Strip(s) == s[b..e] && SpaceOutside(s, b, e)
                           && !IsSpace(s[b]) && !IsSpace(s[e - 1])
  {
    var b := LeadingSpaces(s);
    var e := TrailingStart(s);
    assert b < |s|;
    assert b < e;
    assert SpaceOutside(s, b, e);
  }

  /** `not s.strip()`: the string is empty or whitespace only. */
  predicate IsBlank(s: string) {
    Strip(s) == []
  }

  /** Stripping a string that starts and ends with non-whitespace changes
      nothing. */
  lemma StripUnchanged(s: string)
    requires s == [] || (!IsSpace(s[0]) && !IsSpace(s[|s| - 1]))
    ensures Strip(s) == s
  {
  }

  /** `c.lower()` for ASCII letters. */
  function LowerChar(c: char): char {
    if 'A' <= c <= 'Z' then (c as int - 'A' as int + 'a' as int) as char else c
  }

  /** `s.lower()`. */
  function Lower(s: string): (r: string)
    ensures |r| == |s|
    ensures forall i :: 0 <= i < |s| ==> r[i] == LowerChar(s[i])
  {
    seq(|s|, i requires 0 <= i < |s| => LowerChar(s[i]))
  }

  /** Lower-casing twice is lower-casing once. */
  lemma LowerIdempotent(s: string)
    ensures Lower(Lower(s)) == Lower(s)
  {
    var n := Lower(s);
    forall i | 0 <= i < |n|
      ensures Lower(n)[i] == n[i]
    {
      assert n[i] == LowerChar(s[i]);
    }
  }

  /** Lower-casing a string without ASCII capitals changes nothing. */
  lemma LowerNoCapitals(s: string)
    requires forall i :: 0 <= i < |s| ==> !('A' <= s[i] <= 'Z')
    ensures Lower(s) == s
  {
  }

  /** The needle occurs in the haystack at offset `i`. */
  predicate OccursAt(haystack: string, needle: string, i: int) {
    0 <= i <= |haystack| - |needle| && haystack[i..i + |needle|] == needle
  }

  /** `needle in haystack` for strings. */
  predicate Contains(haystack: string, needle: string)
    decreases |haystack|
  {
    |needle| <= |haystack| && (haystack[..|needle|] == needle || Contains(haystack[1..], needle))
  }

  /** `Contains` holds exactly when the needle occurs at some offset. */
  lemma {:induction false} ContainsIffOccurs(haystack: string, needle: string)
    ensures Contains(haystack, needle) <==> exists i :: OccursAt(haystack, needle, i)
    decreases |haystack|
  {
    if |needle| <= |haystack| {
      if haystack[..|needle|] == needle {
        assert OccursAt(haystack, needle, 0);
      } else {
        ContainsIffOccurs(haystack[1..], needle);
        if exists i :: OccursAt(haystack, needle, i) {
          var i :| OccursAt(haystack, needle, i);
          assert OccursAt(haystack[1..], needle, i - 1) by {
            assert haystack[1..][i - 1..i - 1 + |needle|] == haystack[i..i + |needle|];
          }
        }
        if Contains(haystack[1..], needle) {
          var i :| OccursAt(haystack[1..], needle, i);
          assert OccursAt(haystack, needle, i + 1) by {
            assert haystack[1..][i..i + |needle|] == haystack[i + 1..i + 1 + |needle|];
          }
        }
      }
    }
  }

  /** `s[:n]` for a non-negative `n`. */
  function Take(s: string, n: nat): (r: string)
    ensures |r| <= n && |r| <= |s|
    ensures |s| <= n ==> r == s
    ensures n <= |s| ==> |r| == n
    ensures r == s[..|r|]
  {
    if |s| <= n then s else s[..n]
  }

  /** `"\n".join(parts)`: every part but the last followed by a newline. */
  function JoinLines(parts: seq<string>): string
  {
    if |parts| == 0 then ""
    else if |parts| == 1 then parts[0]
    else JoinLines(parts[..|parts| - 1]) + "\n" + parts[|parts| - 1]
  }

  /** Joining the first `k + 1` parts adds one newline and the `k`-th part
      to the join of the first `k`. */
  lemma JoinLinesPrefix(parts: seq<string>, k: nat)
    requires 0 < k < |parts|
    ensures JoinLines(parts[..k + 1]) == JoinLines(parts[..k]) + "\n" + parts[k]
  {
    assert parts[..k + 1][..k] == parts[..k];
  }

  /** `p` is a prefix of `s`. */
  predicate IsPrefix(p: string, s: string) {
    |p| <= |s| && s[..|p|] == p
  }

  /** `r` is `s` with its trailing whitespace cut off and nothing else, and
      is not blank: what `s.strip()` gives for an `s` that starts with
      non-whitespace. */
  predicate TrailingSpaceCut(r: string, s: string) {
    && IsPrefix(r, s)
    && (forall k :: |r| <= k < |s| ==> IsSpace(s[k]))
    && |r| > 0 && !IsSpace(r[|r| - 1])
  }

  lemma PrefixTransitive(a: string, b: string, c: string)
    requires IsPrefix(a, b) && IsPrefix(b, c)
    ensures IsPrefix(a, c)
  {
    assert c[..|a|] == c[..|b|][..|a|];
  }

  /** A joined list starts with its first part. */
  lemma {:induction false} JoinLinesStartsWithFirst(parts: seq<string>)
    requires |parts| > 0
    ensures IsPrefix(parts[0], JoinLines(parts))
    decreases |parts|
  {
    if |parts| > 1 {
      var init := parts[..|parts| - 1];
      JoinLinesStartsWithFirst(init);
      var t := JoinLines(parts);
      assert t == JoinLines(init) + "\n" + parts[|parts| - 1];
      assert t[..|parts[0]|] == JoinLines(init)[..|parts[0]|];
    }
  }

  /** Stripping a string that starts with non-whitespace only cuts
      trailing whitespace, and keeps every non-whitespace character. */
  lemma StripFromNonSpaceStart(s: string, p: nat)
    requires p < |s| && !IsSpace(s[0]) && !IsSpace(s[p])
    ensures IsPrefix(Strip(s), s) && |Strip(s)| > p
    ensures forall k :: |Strip(s)| <= k < |s| ==> IsSpace(s[k])
  {
    var i, j :| 0 <= i <= j <= |s| && Strip(s) == s[i..j] && SpaceOutside(s, i, j);
    assert SpaceOutside(s, i, j);
    assert i == 0 && j > p;
    assert Strip(s) == s[..j];
  }

  /** Every part of a joined list occurs in the joined text. */
  lemma {:induction false} JoinLinesContainsPart(parts: seq<string>, i: nat)
    requires i < |parts|
    ensures exists off :: OccursAt(JoinLines(parts), parts[i], off)
    decreases |parts|
  {
    var t := JoinLines(parts);
    var n := |parts|;
    if i == n - 1 {
      if n == 1 {
        assert t[0..|parts[0]|] == parts[0];
        assert OccursAt(t, parts[i], 0);
      } else {
        var off := |t| - |parts[i]|;
        assert t[off..off + |parts[i]|] == parts[i];
        assert OccursAt(t, parts[i], off);
      }
    } else {
      var init := parts[..n - 1];
      JoinLinesContainsPart(init, i);
      var off :| OccursAt(JoinLines(init), init[i], off);
      assert t == JoinLines(init) + "\n" + parts[n - 1];
      assert t[off..off + |parts[i]|] == JoinLines(init)[off..off + |parts[i]|];
      assert OccursAt(t, parts[i], off);
    }
  }

  /** Code-point order of strings (SQLite's BINARY collation on UTF-8 text,
      and the order of ISO-8601 timestamps written in one format). */
  predicate StrLe(a: string, b: string)
    decreases |a|
  {
    |a| == 0 || (|b| > 0 && (a[0] < b[0] || (a[0] == b[0] && StrLe(a[1..], b[1..]))))
  }

  lemma {:induction false} StrLeReflexive(a: string)
    ensures StrLe(a, a)
    decreases |a|
  {
    if |a| > 0 {
      StrLeReflexive(a[1..]);
    }
  }

  lemma {:induction false} StrLeTotal(a: string, b: string)
    ensures StrLe(a, b) || StrLe(b, a)
    decreases |a|
  {
    if |a| > 0 && |b| > 0 && a[0] == b[0] {
      StrLeTotal(a[1..], b[1..]);
    }
  }

  lemma {:induction false} StrLeTransitive(a: string, b: string, c: string)
    requires StrLe(a, b) && StrLe(b, c)
    ensures StrLe(a, c)
    decreases |a|
  {
    if |a| > 0 && a[0] == b[0] && b[0] == c[0] {
      StrLeTransitive(a[1..], b[1..], c[1..]);
    }
  }

  lemma {:induction false} StrLeAntisymmetric(a: string, b: string)
    requires StrLe(a, b) && StrLe(b, a)
    ensures a == b
    decreases |a|
  {
    if |a| > 0 {
      StrLeAntisymmetric(a[1..], b[1..]);
      assert a == [a[0]] + a[1..];
      assert b == [b[0]] + b[1..];
    }
  }

  predicate IsDigit(c: char) {
    '0' <= c <= '9'
  }

  function DigitChar(d: nat): (c: char)
    requires d < 10
    ensures IsDigit(c)
  {
    ('0' as int + d) as char
  }

  function DigitValue(c: char): (d: nat)
    requires IsDigit(c)
    ensures d < 10 && DigitChar(d) == c
  {
    c as int - '0' as int
  }

  /** `str(n)` for a non-negative `int`. */
  function NatToString(n: nat): (r: string)
    decreases n
  {
    if n < 10 then [DigitChar(n)] else NatToString(n / 10) + [DigitChar(n % 10)]
  }

  /** `int(s)` for a non-empty string of decimal digits. */
  function ParseNat(s: string): nat
    requires forall i :: 0 <= i < |s| ==> IsDigit(s[i])
    decreases |s|
  {
    if |s| == 0 then 0 else ParseNat(s[..|s| - 1]) * 10 + DigitValue(s[|s| - 1])
  }

  /** The decimal rendering is non-empty, made of digits, has no leading
      zero, and reads back as the same number. */
  lemma {:induction false} NatToStringRoundTrip(n: nat)
    ensures |NatToString(n)| > 0
    ensures forall i :: 0 <= i < |NatToString(n)| ==> IsDigit(NatToString(n)[i])
    ensures NatToString(n)[0] == '0' ==> n == 0 && |NatToString(n)| == 1
    ensures ParseNat(NatToString(n)) == n
    decreases n
  {
    if n >= 10 {
      NatToStringRoundTrip(n / 10);
      var s := NatToString(n);
      assert s[..|s| - 1] == NatToString(n / 10);
      assert s[0] == NatToString(n / 10)[0];
    }
  }
}

=== FILE: wrappers.dfy ===
/** Absent values and failures, as the Python code signals them with `None`
    and with exceptions. */
module Wrappers {

  /** `None` in the Python code: a lookup that found nothing. */
  datatype Option<+T> = None | Some(value: T)

  /** The result of a Python call that either returns a value or raises. */
  datatype Result<+R, +E> = Success(value: R) | Failure(error: E) {

    predicate IsFailure() {
      Failure?
    }

    function PropagateFailure<U>(): Result<U, E>
      requires Failure?
    {
      Failure(error)
    }

    function Extract(): R
      requires Success?
    {
      value
    }
  }
}
